=== FILE: README.md ===
# Poker ledger calculator: a Dafny model of its core

The ledger page reads a PokerStars ledger export as CSV text. It adds up
each player's `net` under the trimmed `player_id`, lists the players from
the biggest winner down, and checks whether the table balances (the total
net rounds to 0). When it does, it suggests who pays whom. This project
models that pipeline, everything in `app.js` apart from rendering. It is
written as pure functions over immutable values, with two methods: the
index loop of the CSV reader and the two-cursor loop of the settlement.
The project also proves properties of the model.

Modules, in pipeline order:

- `Common`: optional values, left-to-right sums, filtering, and
  first-seen-order de-duplication (the iteration order of a JavaScript
  `Set` or `Map`).
- `Text`: `trim` over a fixed ASCII white-space set, `join`, and `split`.
- `Csv`: `parseCSV`, a one-pass scanner with one "inside quotes" flag,
  which never rejects input. `Csv.Parse` states it functionally and
  `Csv.ParseCsv` writes it as the source's index loop.
- `Numbers`: `parseNumber`. Commas are removed, the text is trimmed and
  then read as an optionally signed decimal literal; anything else counts
  as 0.
- `Sorting`: `Array.prototype.sort` with a `b - a` comparator, modelled
  as a stable insertion sort on a real key, largest first.
- `Ledger`: the body of the upload handler between parsing and
  settlement. It covers:
  - the header gate;
  - the row skip policy;
  - the nickname default `Unknown`;
  - the `Map` of running totals keyed by the trimmed identifier;
  - `formatNicknames`;
  - the sorted player list.

  Each counted row is first turned into a *sighting*: its identifier,
  display name and parsed net. The `Map` is then folded over the
  sightings. The row-by-row reference definitions (`RowIds`, `NetFor`,
  `NamesSeen`) are stated directly on rows, and bridge lemmas connect the
  two.
- `Settlement`: `computeTransfers`. Players with a negative net are sorted
  by largest debt and players with a positive net by largest credit. A
  two-cursor walk then pays the smaller outstanding amount at each step,
  and a cursor moves on once its party is within `Tolerance = 0.0001` of
  zero.
- `App`: the whole handler from text to report:
  - the "no data rows" stop;
  - the "missing columns" stop;
  - the player list and its total;
  - the transfers, computed only when `Math.round(total) === 0`.

Nets are exact reals, and `Math.round(x)` is `floor(x + 1/2)`, so the
balance gate holds exactly when `-1/2 <= total < 1/2`.

## Model

| member | source | states |
|---|---|---|
| Csv.Parse | app.js:269-315 | every row read has at least one field, and empty text has no rows |
| Csv.ParseCsv | app.js:269-315 | the source's index loop (doubled quote and CR LF consumed as pairs, trailing flush) computes exactly the rows of the scanner model, each with at least one field |
| Csv.ParseEncode | app.js:279-293 | fields wrapped in quotes with inner quotes doubled read back exactly: commas and line breaks inside quotes are field content and `""` is one literal quote |
| Csv.ParseQuotedName | app.js:279-293 | a line `"<name>",<id>,<net>` with a quoted first field is one row of three fields, whatever commas the name holds |
| Csv.ParseQuotedLines | app.js:279-306 | two such lines separated by CR LF are exactly two rows, with no empty row between them |
| Csv.ParsePlain | app.js:289-306 | text with no quote and no CR is read as its lines split at commas, without an empty row after a final line feed |
| Csv.RunLineEnd | app.js:295-303 | in any state outside quotes, a closed quoted field included, CR LF, a CR not followed by LF and a lone LF each end the row once, so CR LF never leaves an empty row between CR and LF |
| Csv.ParseUnquoted | app.js:295-303 | text holding no quote reads the same with its CR LF pairs and lone CRs written as LF, and is then its lines split at commas |
| Csv.ParseFlushesTail | app.js:309-312 | when the text ends outside quotes, content after the last line break is emitted as the last row, just as if a line feed followed it |
| Csv.ParseUnclosedQuote | app.js:309-312 | a quote never closed runs to the end of the text, and the characters after it are still emitted as the last row (`"abc` reads as one row holding `abc`; a lone quote gives no row) |
| Numbers.ParseNumber | app.js:233-236 | a missing value reads as 0 |
| Numbers.ParseNumberPadded | app.js:237 | white space before and after the text never changes the number read |
| Numbers.ParseNumberFixed | app.js:237-239 | a number written with a whole part, a point and `d` fraction digits, with a minus sign when negative (`12.50`, `-0.75`), reads back as its value |
| Numbers.ParseNumberNoDigits | app.js:237-239 | text that contains no digit is not a number and reads as 0 |
| Numbers.ParseNumberJunk | app.js:237-239 | text holding an ASCII character that no numeric string may contain (not a letter, digit, point, sign, comma or white space; `$1,200`, `12%`) is not a number and reads as 0 |
| Numbers.ParseNumberTwoPoints | app.js:237-239 | text holding two decimal points (`1.2.3`) is not a number and reads as 0 |
| Numbers.ParseNumberLateSign | app.js:237-239 | in text without letters (so without an exponent, radix prefix or `Infinity`), a sign after an ASCII character other than white space or a comma (`5-`, `1+2`) makes the text a non-number that reads as 0 |
| Numbers.ParseNumberIgnoresComma | app.js:237 | inserting a comma anywhere in the text never changes the number read |
| Numbers.ParseNumberShow | app.js:237-239 | an integer written in decimal, with a minus sign when negative, reads back as that integer |
| Numbers.ParseNumberGrouped | app.js:237-239 | an integer written with commas placed anywhere (thousands separators) reads back as that integer |
| Sorting.SortDesc | app.js:124 | the sorted list is a permutation of the input with keys never increasing |
| Sorting.SortDescStable | app.js:124 | elements with equal keys keep their relative input order |
| Sorting.SortDescOfSorted | app.js:124 | a list already in order is returned unchanged |
| Ledger.FindColumns | app.js:77-89 | the upload is refused exactly when one of `player_nickname`, `player_id`, `net` is not a trimmed header cell; otherwise each column is the first trimmed header cell with that name |
| Ledger.RowId | app.js:98-101 | a row is skipped exactly when its identifier cell is missing or consists only of white space; otherwise it counts under the trimmed, non-empty identifier |
| Ledger.Screen | app.js:94-101 | the two skip tests in source order skip exactly the rows whose identifier cell is missing or only white space; the blank-row test never decides alone |
| Ledger.ScreenIsRowId | app.js:94-101 | skipping by the identifier test alone agrees with the two tests in source order |
| Ledger.RowNickname | app.js:103 | a nickname cell holding anything but white space becomes the display name, trimmed; a missing or white-space cell gives `Unknown`; the name is never empty |
| Ledger.FormatNicknames | app.js:261-267 | the formatted name is never empty |
| Ledger.FormatTwo | app.js:261-267 | two non-empty names are joined with a comma and a space, in order |
| Ledger.NamedLine | app.js:261-267 | for a counted identifier the formatted name is the join of its distinct nicknames, never the `Unknown` fallback |
| Ledger.RecordTallies | app.js:106-116 | one `Map` step (create with net 0, add the net, add a non-empty name to the set) keeps the entries equal to the reference sums and name sets, with identifiers in first-seen order |
| Ledger.TallyTallies | app.js:106-116 | folding the `Map` over any sightings gives one entry per distinct identifier, in first-seen order, holding the sum of that identifier's nets and its distinct names in first-seen order |
| Ledger.SightingsIds | app.js:93-101 | the counted rows are exactly the rows with a non-blank identifier, in row order |
| Ledger.SightingsNet | app.js:104-112 | the nets carried into the `Map` are the parsed `net` cells of exactly the rows counted under an identifier |
| Ledger.SightingsNames | app.js:103-115 | the names carried into the `Map` are the display names of exactly the rows counted under an identifier |
| Ledger.AccumulateTallies | app.js:93-117 | the `Map` built from the data rows has one entry per distinct counted identifier in first-seen order, each holding the sum of that identifier's row nets and its distinct row nicknames in first-seen order |
| Ledger.Rank | app.js:119-124 | the player list is a permutation of the `Map`'s lines with nets never increasing |
| Ledger.Aggregate | app.js:119-124 | the player list is sorted by net, largest first, and holds exactly the `Map`'s lines |
| Ledger.AggregateLines | app.js:93-124 | every line's identifier was counted, its net is the sum of that identifier's row nets, and its name lists that identifier's distinct nicknames in first-seen order, comma separated |
| Ledger.AggregateCovers | app.js:93-119 | an identifier has a line exactly when some row is counted under it |
| Ledger.AggregateUnique | app.js:91-119 | no identifier has two lines |
| Ledger.TwoSightings | app.js:103-116 | two rows of one identifier under different nicknames make a single line named `first, second` whose net is the sum |
| Ledger.AggregateReorder | app.js:93-117 | reordering the data rows lists the same identifiers with the same nets |
| Ledger.AggregateTotal | app.js:125 | the total of the player list is the sum of the nets of all counted rows |
| Settlement.Creditors | app.js:197-204 | the creditors are all the players of the list with a positive net, each as often as listed, largest first |
| Settlement.Debtors | app.js:200-205 | the debtors are all the players of the list with a negative net, each as often as listed, most negative first |
| Settlement.Advance | app.js:212-227 | one pass pays at most one positive amount from the current debtor to the current creditor, keeps debts non-positive and credits non-negative, and moves at least one cursor by at most one place |
| Settlement.Walk | app.js:211-228 | the loop ends with one side exhausted, and every payment is positive and between parties still in play |
| Settlement.Pay | app.js:207-230 | the source's while loop, statement for statement, emits exactly the transfers of the walk |
| Settlement.PassKeeps | app.js:212-227 | after the loop body's statements (pay the smaller of credit and debt when positive, move both nets by it, then test each cursor on its own), a cursor has moved and the transfers so far followed by what the walk pays from the new state are still the whole list |
| Settlement.ComputeTransfers | app.js:196-231 | every transfer is a positive amount from a listed player with a negative net to a listed player with a positive net; there are none when one side is empty, and otherwise fewer than debtors plus creditors |
| Settlement.SettleShape | app.js:211-228 | the same amounts, directions and count, for the functional walk |
| Settlement.WalkCount | app.js:211-228 | a walk makes no more payments than cursor moves, and strictly fewer when it exhausts both sides |
| Settlement.WalkBalances | app.js:215-219 | each party's outstanding net moves by exactly what it paid or received |
| Settlement.WalkConserves | app.js:215-219 | the sum of all outstanding nets never changes |
| Settlement.WalkClosed | app.js:222-227 | every party a cursor moved past is left within `Tolerance` of zero |
| Settlement.SettleNeverOverpays | app.js:215-219 | no debtor pays more than its debt and no creditor receives more than its credit |
| Settlement.SettleResidue | app.js:211-228 | whatever the nets sum to, every debtor pays and every creditor receives its net up to `Tolerance` times the number of parties plus the size of that sum |
| Settlement.SettleBalanced | app.js:211-228 | when the nets sum to zero, every debtor pays and every creditor receives its net up to `Tolerance` times the number of parties |
| Settlement.ResidueExample | app.js:222-227 | a balanced list on which a debtor is never reached and keeps owing more than `Tolerance` |
| App.Round | app.js:126 | `Math.round` gives the integer nearest to its argument, halves rounded up |
| App.Analyze | app.js:72-127 | at most one row stops with "no data"; a missing column stops with "missing columns"; otherwise the list is sorted by net, the total is the sum of its nets, and transfers are produced only when the total rounds to 0, in which case they are the settlement of the list |
| App.AnalyzeLedger | app.js:91-125 | the lines are exactly the counted identifiers, each once, with the sum of its row nets, and the total is the sum of all counted nets |
| App.AnalyzeTransfers | app.js:127 | every suggested transfer goes from a listed loser to a listed winner with a positive amount, and there are fewer transfers than parties |
| App.AnalyzeSettles | app.js:125-127 | when the total rounds to 0, the transfers leave each debtor and creditor short of its net by at most `Tolerance` per party plus the size of the total, which is at most 1/2 |
| App.AnalyzeEmpty | app.js:72-75 | an empty file stops with the no-data message |

## Left out

- Rendering, DOM access, event wiring and download buttons
  (`renderTotals`, `renderTransfers`, `renderEmpty`, `renderTotalNet`,
  `setDownloadState`) are outside the model. The report datatype of
  `App.Analyze` stands for what would be shown.
- `file.text()` is an asynchronous read; the model starts from the text.
- Image export through `html2canvas` calls a foreign library and is not
  modelled.
- `formatMoney` depends on locale formatting and is display only.
  `escapeHTML` is display only too.
- IEEE-754 doubles are replaced by exact reals. Rounding errors in `+=`,
  in `reduce` and in the settlement arithmetic are not modelled.
- Numbers.ParseNumber: only optionally signed decimal literals are read as
  numbers. Hexadecimal, binary and octal literals, exponents, `Infinity`
  and the empty string (which `Number` reads as 0, the same result) are
  not; such text falls to 0 here, like any non-number. A decimal literal
  too large for a double (a 400-digit integer, say) is `Infinity` in the
  source, which `Number.isFinite` turns into 0; here it keeps its exact
  value, since values are exact reals.
- Text.Trim: white space is the six ASCII characters space, tab, LF, VT,
  FF and CR, not the full Unicode set of `String.prototype.trim`.
- Settlement.ComputeTransfers: the source's transfer objects hold the
  working copies, whose nets the loop then changes. The model's transfers
  hold the players as listed. Only the nickname and the amount are read
  afterwards, and both are the same. The caller's list is never changed,
  since values are immutable here.
- Settlement.SettleBalanced: the bound is `Tolerance` times the number of
  debtors plus creditors, not `Tolerance` itself. A cursor moves on while
  its party is still up to `Tolerance` short, and these shortfalls can
  pile up on a party the other cursor never reaches.
  `Settlement.ResidueExample` is a balanced list where a debtor keeps
  owing 0.00018. The handler settles whenever the total rounds to 0, not
  only when it is 0; `Settlement.SettleResidue` and `App.AnalyzeSettles`
  cover that case with the size of the total added to the bound.
- Ledger.FormatNicknames: the name is `Unknown` for an empty set, and also
  for the set holding just `Unknown`, which a row with a blank nickname
  produces. In the handler every name in the set is non-empty, so the
  filter in `formatNicknames` never drops anything (`Ledger.NamedLine`).
- Ledger.Screen: the handler's first test skips empty and all-blank rows.
  Such a row also has a missing or blank identifier, so the second test
  skips it as well and the first never changes the result. The
  aggregation uses the identifier test alone (`Ledger.ScreenIsRowId`).

=== FILE: app.dfy ===
/** The upload handler with its rendering left out: CSV text goes in, and
    out comes one of the two early stops or the player list, its total and
    the suggested transfers. */
module App {
  import opened Common
  import opened Sorting
  import Csv
  import opened Ledger
  import opened Settlement

  /** `Math.round` on an exact real: the nearest integer, halves rounded up. */
  function Round(x: real): (r: int)
    ensures r as real - 0.5 <= x < r as real + 0.5
  {
    (x + 0.5).Floor
  }

  /** What the handler shows: the two messages that stop it early, or the
      tables with the number of data rows read. */
  datatype Report =
    | NoData
    | MissingColumns
    | Results(players: seq<Player>, total: real, transfers: seq<Transfer>, dataRows: nat)

  /** The handler from the file's text to what it renders. */
  function Analyze(text: string): (r: Report)
    ensures r.NoData? <==> |Csv.Parse(text)| <= 1
    ensures r.MissingColumns? <==> |Csv.Parse(text)| > 1 && FindColumns(Csv.Parse(text)[0]).None?
    ensures r.Results? ==> r.dataRows == |Csv.Parse(text)| - 1
    ensures r.Results? ==> NonIncreasing(r.players, ByNet)
    ensures r.Results? ==> r.total == Sum(r.players, ByNet)
    ensures r.Results? && r.transfers != [] ==> -0.5 <= r.total < 0.5
    ensures r.Results? && -0.5 <= r.total < 0.5 ==> r.transfers == Settle(r.players)
  {
    var rows := Csv.Parse(text);
    if |rows| <= 1 then NoData
    else
      match FindColumns(rows[0])
      case None => MissingColumns
      case Some(cols) =>
        var players := Aggregate(rows[1..], cols);
        var total := Sum(players, ByNet);
        var transfers := if Round(total) == 0 then Settle(players) else [];
        Results(players, total, transfers, |rows| - 1)
  }

  /** The players and the total come from the data rows: one line per
      counted identifier, with that identifier's sum, and a total that is
      the sum of every counted row's net. */
  lemma AnalyzeLedger(text: string)
    requires Analyze(text).Results?
    ensures var rows, r := Csv.Parse(text), Analyze(text);
      var cols := FindColumns(rows[0]).value;
      && (forall id :: Listed(r.players, id) <==> id in RowIds(rows[1..], cols))
      && (forall k :: 0 <= k < |r.players| ==> r.players[k].net == NetFor(rows[1..], cols, r.players[k].id))
      && (forall a, b :: 0 <= a < b < |r.players| ==> r.players[a].id != r.players[b].id)
      && r.total == Sum(rows[1..], Counted(cols))
  {
    var rows := Csv.Parse(text);
    var cols := FindColumns(rows[0]).value;
    AggregateCovers(rows[1..], cols);
    AggregateLines(rows[1..], cols);
    AggregateUnique(rows[1..], cols);
    AggregateTotal(rows[1..], cols);
  }

  /** Every suggested transfer is a positive amount from a listed player
      who lost to a listed player who won, and there are fewer transfers
      than players with a non-zero net. */
  lemma AnalyzeTransfers(text: string)
    requires Analyze(text).Results?
    ensures var r := Analyze(text);
      forall t :: t in r.transfers ==>
        t.amount > 0.0 && t.from in r.players && t.from.net < 0.0 && t.to in r.players && t.to.net > 0.0
    ensures var r := Analyze(text);
      |r.transfers| < |Debtors(r.players)| + |Creditors(r.players)| || r.transfers == []
  {
    SettleShape(Analyze(text).players);
  }

  /** When the total rounds to 0 the transfers are the settlement of the
      list, and they leave each party short of its net by at most
      `Tolerance` per party plus the size of the total, which is below 1/2. */
  lemma AnalyzeSettles(text: string)
    requires Analyze(text).Results? && Round(Analyze(text).total) == 0
    ensures var r := Analyze(text);
      r.transfers == Settle(r.players) && Abs(r.total) <= 0.5 && SettledWithin(r.players, Abs(r.total))
  {
    var r := Analyze(text);
    Settled(r.players);
  }

  /** Empty text has no rows, so the handler stops with its no-data message. */
  lemma AnalyzeEmpty()
    ensures Analyze("") == NoData
  {
    assert Csv.Parse("") == [];
  }
}

=== FILE: common.dfy ===
/** Small sequence vocabulary shared by the ledger model: an optional value,
    sums of a real-valued measure, filtering, distinctness and
    first-seen-order de-duplication. */
module Common {

  /** A value that may be missing; JavaScript's `undefined` for an absent cell. */
  datatype Option<T> = None | Some(value: T)

  /** Sum of `f` over `s`, added left to right as `Array.prototype.reduce` does. */
  function Sum<T>(s: seq<T>, f: T -> real): real
    decreases |s|
  {
    if |s| == 0 then 0.0 else Sum(s[..|s| - 1], f) + f(s[|s| - 1])
  }

  lemma {:induction false} SumAppend<T>(a: seq<T>, b: seq<T>, f: T -> real)
    ensures Sum(a + b, f) == Sum(a, f) + Sum(b, f)
    decreases |b|
  {
    if |b| == 0 {
      assert a + b == a;
    } else {
      var b' := b[..|b| - 1];
      assert (a + b)[..|a + b| - 1] == a + b';
      SumAppend(a, b', f);
    }
  }

  /** Removing the element at `k` removes one occurrence of it. */
  lemma RemoveAt<T>(b: seq<T>, k: nat)
    requires k < |b|
    ensures multiset(b[..k] + b[k + 1..]) == multiset(b) - multiset{b[k]}
  {
    SplitAt(b, k);
  }

  lemma SplitAt<T>(b: seq<T>, k: nat)
    requires k < |b|
    ensures b == b[..k] + [b[k]] + b[k + 1..]
  {
  }

  lemma SumSingle<T>(x: T, f: T -> real)
    ensures Sum([x], f) == f(x)
  {
    assert [x][..0] == [];
  }

  /** The sum is the term at `k` plus the sum of the others. */
  lemma SumRemoveAt<T>(b: seq<T>, k: nat, f: T -> real)
    requires k < |b|
    ensures Sum(b, f) == Sum(b[..k] + b[k + 1..], f) + f(b[k])
  {
    var x, front, back := b[k], b[..k], b[k + 1..];
    calc {
      Sum(b, f);
      { SplitAt(b, k); }
      Sum((front + [x]) + back, f);
      { SumAppend(front + [x], back, f); }
      Sum(front + [x], f) + Sum(back, f);
      { SumAppend(front, [x], f); SumSingle(x, f); }
      Sum(front, f) + f(x) + Sum(back, f);
      { SumAppend(front, back, f); }
      Sum(front + back, f) + f(x);
    }
  }

  /** A sum does not depend on the order of its terms. */
  lemma {:induction false} SumPermutation<T>(a: seq<T>, b: seq<T>, f: T -> real)
    requires multiset(a) == multiset(b)
    ensures Sum(a, f) == Sum(b, f)
    decreases |a|
  {
    if |a| == 0 {
      assert |b| == |multiset(b)| == 0;
    } else {
      var x := a[|a| - 1];
      var a' := a[..|a| - 1];
      assert a == a' + [x];
      assert multiset(a') == multiset(a) - multiset{x};
      var k := PositionOf(b, x);
      RemoveAt(b, k);
      SumPermutation(a', b[..k] + b[k + 1..], f);
      SumRemoveAt(b, k, f);
    }
  }

  /** The elements of `s` satisfying `p`, in their original order. */
  function Filter<T(==,!new)>(s: seq<T>, p: T -> bool): (r: seq<T>)
    ensures |r| <= |s|
    ensures forall k :: 0 <= k < |r| ==> p(r[k])
    ensures forall x :: x in r <==> x in s && p(x)
    decreases |s|
  {
    if |s| == 0 then []
    else
      var rest := Filter(s[..|s| - 1], p);
      assert forall x :: x in s <==> x in s[..|s| - 1] || x == s[|s| - 1];
      if p(s[|s| - 1]) then rest + [s[|s| - 1]] else rest
  }

  /** No element occurs twice. */
  predicate Distinct<T(==)>(s: seq<T>)
  {
    forall a, b :: 0 <= a < b < |s| ==> s[a] != s[b]
  }

  /** Position of the first occurrence of `x` in `s`. */
  function FirstIndex<T(==)>(s: seq<T>, x: T): (k: nat)
    requires x in s
    ensures k < |s| && s[k] == x
    ensures forall m :: 0 <= m < k ==> s[m] != x
  {
    if s[0] == x then 0 else 1 + FirstIndex(s[1..], x)
  }

  /** The distinct elements of `s`, each kept at its first occurrence: the
      iteration order of a JavaScript `Set` filled from `s`. */
  function Dedup<T(==,!new)>(s: seq<T>): (r: seq<T>)
    ensures Distinct(r)
    ensures forall x :: x in r <==> x in s
    decreases |s|
  {
    if |s| == 0 then []
    else
      var d := Dedup(s[..|s| - 1]);
      assert forall y :: y in s <==> y in s[..|s| - 1] || y == s[|s| - 1];
      if s[|s| - 1] in d then d else d + [s[|s| - 1]]
  }

  /** An element of a prefix is first found within that prefix. */
  lemma {:induction false} FirstIndexPrefix<T>(s: seq<T>, n: nat, y: T)
    requires n <= |s| && y in s[..n]
    ensures FirstIndex(s, y) == FirstIndex(s[..n], y)
    decreases n
  {
    assert s[..n][0] == s[0];
    if s[0] != y {
      assert s[1..][..n - 1] == s[..n][1..];
      FirstIndexPrefix(s[1..], n - 1, y);
    }
  }

  /** `Dedup` keeps first occurrences in their order. */
  lemma {:induction false} DedupOrder<T(!new)>(s: seq<T>)
    ensures forall a, b :: 0 <= a < b < |Dedup(s)| ==> FirstIndex(s, Dedup(s)[a]) < FirstIndex(s, Dedup(s)[b])
    decreases |s|
  {
    if |s| > 0 {
      var n := |s| - 1;
      var s', x := s[..n], s[n];
      var d, r := Dedup(s'), Dedup(s);
      DedupOrder(s');
      forall a, b | 0 <= a < b < |r|
        ensures FirstIndex(s, r[a]) < FirstIndex(s, r[b])
      {
        assert r[a] == d[a] && d[a] in d;
        FirstIndexPrefix(s, n, r[a]);
        if b < |d| {
          assert r[b] == d[b] && d[b] in d;
          FirstIndexPrefix(s, n, r[b]);
        } else {
          assert r[b] == x && x !in s';
          assert FirstIndex(s, x) == n;
        }
      }
    }
  }

  /** `Array.prototype.indexOf`, with `None` for -1. */
  function IndexOf<T(==)>(s: seq<T>, x: T): (r: Option<nat>)
    ensures r.None? <==> x !in s
    ensures r.Some? ==> r.value < |s| && s[r.value] == x
    ensures r.Some? ==> forall m :: 0 <= m < r.value ==> s[m] != x
  {
    if x in s then Some(FirstIndex(s, x)) else None
  }

  lemma {:induction false} FilterAll<T(!new)>(s: seq<T>, p: T -> bool)
    requires forall k :: 0 <= k < |s| ==> p(s[k])
    ensures Filter(s, p) == s
    decreases |s|
  {
    if |s| > 0 {
      FilterAll(s[..|s| - 1], p);
      assert s[..|s| - 1] + [s[|s| - 1]] == s;
    }
  }

  /** In a sequence without repetitions every element occurs once. */
  lemma {:induction false} DistinctOnce<T>(s: seq<T>, x: T)
    requires Distinct(s)
    ensures multiset(s)[x] <= 1
    decreases |s|
  {
    if |s| > 0 {
      var s' := s[..|s| - 1];
      assert s == s' + [s[|s| - 1]];
      DistinctOnce(s', x);
      if x == s[|s| - 1] {
        assert x !in s';
      }
    }
  }

  /** Reordering keeps a sequence free of repetitions. */
  lemma DistinctPermutation<T>(a: seq<T>, b: seq<T>)
    requires multiset(a) == multiset(b) && Distinct(a)
    ensures Distinct(b)
  {
    forall x, y | 0 <= x < y < |b|
      ensures b[x] != b[y]
    {
      if b[x] == b[y] {
        var v := b[x];
        assert b == b[..y] + [v] + b[y + 1..];
        assert v in b[..y];
        assert multiset(b[..y])[v] >= 1;
        assert multiset(b)[v] == multiset(b[..y])[v] + 1 + multiset(b[y + 1..])[v];
        DistinctOnce(a, v);
        assert false;
      }
    }
  }

  lemma DedupAppend<T(!new)>(s: seq<T>, x: T)
    ensures Dedup(s + [x]) == if x in s then Dedup(s) else Dedup(s) + [x]
  {
    assert (s + [x])[..|s|] == s;
  }

  /** Replacing one term changes the sum by the difference. */
  lemma {:induction false} SumUpdate<T>(s: seq<T>, k: nat, x: T, f: T -> real)
    requires k < |s|
    ensures Sum(s[k := x], f) == Sum(s, f) - f(s[k]) + f(x)
    decreases |s|
  {
    var n := |s| - 1;
    if k < n {
      assert s[k := x][..n] == s[..n][k := x];
      SumUpdate(s[..n], k, x, f);
    } else {
      assert s[k := x][..n] == s[..n];
    }
  }

  /** A position of an element of a sequence's multiset. */
  lemma PositionOf<T>(s: seq<T>, x: T) returns (k: nat)
    requires x in multiset(s)
    ensures k < |s| && s[k] == x
  {
    assert x in s;
    k :| 0 <= k < |s| && s[k] == x;
  }

  lemma ConcatAssociative<T>(a: seq<T>, b: seq<T>, c: seq<T>)
    ensures (a + b) + c == a + (b + c)
  {
  }

  /** Appending the first element and then the rest appends the whole. */
  lemma AppendFirst<T>(a: seq<T>, f: seq<T>)
    requires |f| > 0
    ensures a + [f[0]] + f[1..] == a + f
  {
    assert [f[0]] + f[1..] == f;
  }
}

=== FILE: csv.dfy ===
/** The CSV reader of the ledger page (`parseCSV`): a one-pass character
    scanner with a single "inside quotes" flag. It follows the common
    convention of RFC 4180, section 2, but is more permissive: a quote
    toggles the flag wherever it appears in a field, a doubled quote inside
    quotes is one literal quote, and no input is ever rejected. */
module Csv {
  import opened Common
  import opened Text

  /** One record: its fields in order. */
  type Row = seq<string>

  /** The scanner between two characters: the rows emitted so far, the row
      and the field being built, and whether a quoted section is open. */
  datatype Scanner = Scanner(rows: seq<Row>, row: Row, field: string, inQuotes: bool)

  const Start := Scanner([], [], "", false)

  /** Closes the current field and row and emits the row. */
  function Terminate(st: Scanner): Scanner
  {
    Scanner(st.rows + [st.row + [st.field]], [], "", false)
  }

  /** End of input: a pending field or row is emitted as the last row. */
  function Flush(st: Scanner): seq<Row>
  {
    if |st.field| > 0 || |st.row| > 0 then Terminate(st).rows else st.rows
  }

  predicate RowsNonEmpty(rows: seq<Row>)
  {
    forall k :: 0 <= k < |rows| ==> |rows[k]| >= 1
  }

  /** One iteration of the scanner loop: how many characters of `text` it
      consumes and the state after them. A doubled quote inside quotes and
      a CR LF pair outside quotes are consumed together. */
  datatype Move = Move(width: nat, next: Scanner)

  function Step(text: string, st: Scanner): (m: Move)
    requires |text| > 0
    ensures 1 <= m.width <= |text|
    ensures st.rows <= m.next.rows
    ensures RowsNonEmpty(st.rows) ==> RowsNonEmpty(m.next.rows)
  {
    var c := text[0];
    if c == '"' then
      if st.inQuotes && |text| > 1 && text[1] == '"' then
        Move(2, st.(field := st.field + ['"']))
      else
        Move(1, st.(inQuotes := !st.inQuotes))
    else if c == ',' && !st.inQuotes then
      Move(1, st.(row := st.row + [st.field], field := ""))
    else if (c == '\n' || c == '\r') && !st.inQuotes then
      Move(if c == '\r' && |text| > 1 && text[1] == '\n' then 2 else 1, Terminate(st))
    else
      Move(1, st.(field := st.field + [c]))
  }

  /** The scanner loop from state `st` to the end of `text`. Emitted rows
      are only ever appended to, and each of them has at least one field. */
  function Run(text: string, st: Scanner): (end: Scanner)
    ensures st.rows <= end.rows
    ensures RowsNonEmpty(st.rows) ==> RowsNonEmpty(end.rows)
    decreases |text|
  {
    if |text| == 0 then st
    else
      var m := Step(text, st);
      Run(text[m.width..], m.next)
  }

  /** `parseCSV`: all rows of `text`; every row has at least one field and
      the empty text has no rows. */
  function Parse(text: string): (rows: seq<Row>)
    ensures RowsNonEmpty(rows)
    ensures text == [] ==> rows == []
  {
    Flush(Run(text, Start))
  }

  /** `parseCSV` as the source writes it: an index loop with the scanner
      state in local variables. */
  method ParseCsv(text: string) returns (rows: seq<Row>)
    ensures rows == Parse(text)
    ensures RowsNonEmpty(rows)
  {
    rows := [];
    var row: Row := [];
    var field := "";
    var inQuotes := false;
    var i := 0;
    while i < |text|
      invariant 0 <= i <= |text|
      invariant Run(text[i..], Scanner(rows, row, field, inQuotes)) == Run(text, Start)
      invariant RowsNonEmpty(rows)
    {
      var c := text[i];
      var hasNext := i + 1 < |text|;
      if c == '"' {
        if inQuotes && hasNext && text[i + 1] == '"' {
          field := field + ['"'];
          i := i + 1;
        } else {
          inQuotes := !inQuotes;
        }
      } else if c == ',' && !inQuotes {
        row := row + [field];
        field := "";
      } else if (c == '\n' || c == '\r') && !inQuotes {
        if c == '\r' && hasNext && text[i + 1] == '\n' {
          i := i + 1;
        }
        row := row + [field];
        rows := rows + [row];
        row := [];
        field := "";
      } else {
        field := field + [c];
      }
      i := i + 1;
    }
    if |field| > 0 || |row| > 0 {
      row := row + [field];
      rows := rows + [row];
    }
  }

  // ---------------------------------------------------------------------
  // Quoted fields: an encoder whose output the scanner reads back exactly.

  /** A field's characters with every quote doubled. */
  function Escape(f: string): string
  {
    if |f| == 0 then "" else (if f[0] == '"' then "\"\"" else [f[0]]) + Escape(f[1..])
  }

  /** A field wrapped in quotes, so commas and line breaks in it are content. */
  function Quote(f: string): string
  {
    "\"" + Escape(f) + "\""
  }

  function QuoteAll(fields: Row): (r: seq<string>)
    ensures |r| == |fields|
  {
    if |fields| == 0 then [] else [Quote(fields[0])] + QuoteAll(fields[1..])
  }

  /** Every field quoted, fields separated by commas, each row ended by LF. */
  function Encode(rows: seq<Row>): string
  {
    if |rows| == 0 then "" else Join(QuoteAll(rows[0]), ",") + "\n" + Encode(rows[1..])
  }

  /** Inside quotes, a doubled quote is one literal quote. */
  lemma RunDoubledQuote(rest: string, st: Scanner)
    requires st.inQuotes
    ensures Run("\"\"" + rest, st) == Run(rest, st.(field := st.field + ['"']))
  {
    assert Step("\"\"" + rest, st) == Move(2, st.(field := st.field + ['"']));
    assert ("\"\"" + rest)[2..] == rest;
  }

  /** Inside quotes, any character but a quote is field content. */
  lemma RunQuotedChar(c: char, rest: string, st: Scanner)
    requires st.inQuotes && c != '"'
    ensures Run([c] + rest, st) == Run(rest, st.(field := st.field + [c]))
  {
    assert Step([c] + rest, st) == Move(1, st.(field := st.field + [c]));
    assert ([c] + rest)[1..] == rest;
  }

  /** Inside quotes, the first character of an escaped body is appended
      to the field. */
  lemma RunEscapedFirst(f: string, rest: string, st: Scanner)
    requires st.inQuotes && |f| > 0
    ensures Run(Escape(f) + "\"" + rest, st)
         == Run(Escape(f[1..]) + "\"" + rest, st.(field := st.field + [f[0]]))
  {
    var tail := Escape(f[1..]) + "\"" + rest;
    if f[0] == '"' {
      assert Escape(f) + "\"" + rest == "\"\"" + tail;
      RunDoubledQuote(tail, st);
    } else {
      assert Escape(f) + "\"" + rest == [f[0]] + tail;
      RunQuotedChar(f[0], tail, st);
    }
  }

  /** Inside quotes, a quote not followed by another closes the quotes. */
  lemma RunClosingQuote(rest: string, st: Scanner)
    requires st.inQuotes
    requires rest == [] || rest[0] != '"'
    ensures Run("\"" + rest, st) == Run(rest, st.(inQuotes := false))
  {
    assert Step("\"" + rest, st) == Move(1, st.(inQuotes := false));
    assert ("\"" + rest)[1..] == rest;
  }

  /** Inside quotes, an escaped field body and its closing quote append the
      field's characters, whatever commas, line breaks or quotes it holds. */
  lemma {:induction false} RunEscaped(f: string, rest: string, st: Scanner)
    requires st.inQuotes
    requires rest == [] || rest[0] != '"'
    ensures Run(Escape(f) + "\"" + rest, st)
         == Run(rest, st.(field := st.field + f, inQuotes := false))
    decreases |f|
  {
    if |f| == 0 {
      assert Escape(f) + "\"" + rest == "\"" + rest;
      RunClosingQuote(rest, st);
      assert st.field + f == st.field;
    } else {
      var st' := st.(field := st.field + [f[0]]);
      RunEscapedFirst(f, rest, st);
      RunEscaped(f[1..], rest, st');
      AppendFirst(st.field, f);
    }
  }

  /** A quoted field read at the start of a field yields exactly that field. */
  lemma RunQuoted(f: string, rest: string, st: Scanner)
    requires !st.inQuotes && st.field == ""
    requires rest == [] || rest[0] != '"'
    ensures Run(Quote(f) + rest, st) == Run(rest, st.(field := f))
  {
    var text := Quote(f) + rest;
    assert text == "\"" + (Escape(f) + "\"" + rest);
    assert Step(text, st) == Move(1, st.(inQuotes := true));
    assert text[1..] == Escape(f) + "\"" + rest;
    RunEscaped(f, rest, st.(inQuotes := true));
    assert st.field + f == f;
  }

  lemma {:induction false} JoinCons(a: string, parts: seq<string>, sep: string)
    requires |parts| >= 1
    ensures Join([a] + parts, sep) == a + sep + Join(parts, sep)
    decreases |parts|
  {
    if |parts| == 1 {
      assert ([a] + parts)[..1] == [a];
    } else {
      var init := parts[..|parts| - 1];
      JoinCons(a, init, sep);
      assert ([a] + parts)[..|parts|] == [a] + init;
    }
  }

  /** A line feed outside quotes closes the pending field and row. */
  lemma RunBreak(rest: string, st: Scanner)
    requires !st.inQuotes
    ensures Run("\n" + rest, st) == Run(rest, Terminate(st))
  {
    assert Step("\n" + rest, st) == Move(1, Terminate(st));
    assert ("\n" + rest)[1..] == rest;
  }

  /** Outside quotes, whatever came before (a closed quoted field
      included), a CR LF pair, a CR not followed by LF and a lone LF each
      end the row once: CR LF never leaves an empty row between CR and LF. */
  lemma RunLineEnd(rest: string, st: Scanner)
    requires !st.inQuotes
    ensures Run("\r\n" + rest, st) == Run("\n" + rest, st) == Run(rest, Terminate(st))
    ensures |rest| == 0 || rest[0] != '\n' ==> Run("\r" + rest, st) == Run("\n" + rest, st)
  {
    RunBreak(rest, st);
    assert Step("\r\n" + rest, st) == Move(2, Terminate(st));
    assert ("\r\n" + rest)[2..] == rest;
    if |rest| == 0 || rest[0] != '\n' {
      assert Step("\r" + rest, st) == Move(1, Terminate(st));
      assert ("\r" + rest)[1..] == rest;
    }
  }

  /** A comma outside quotes closes the pending field. */
  lemma RunComma(rest: string, st: Scanner)
    requires !st.inQuotes
    ensures Run("," + rest, st) == Run(rest, st.(row := st.row + [st.field], field := ""))
  {
    assert Step("," + rest, st) == Move(1, st.(row := st.row + [st.field], field := ""));
    assert ("," + rest)[1..] == rest;
  }

  /** A quoted last field and a line feed close the row. */
  lemma RunEncodedLast(f: string, rest: string, rows: seq<Row>, row: Row)
    ensures Run(Quote(f) + ("\n" + rest), Scanner(rows, row, "", false))
         == Run(rest, Scanner(rows + [row + [f]], [], "", false))
  {
    var st := Scanner(rows, row, "", false);
    RunQuoted(f, "\n" + rest, st);
    RunBreak(rest, st.(field := f));
  }

  /** A quoted field and a comma add the field to the row. */
  lemma RunEncodedField(f: string, rest: string, rows: seq<Row>, row: Row)
    ensures Run(Quote(f) + ("," + rest), Scanner(rows, row, "", false))
         == Run(rest, Scanner(rows, row + [f], "", false))
  {
    var st := Scanner(rows, row, "", false);
    RunQuoted(f, "," + rest, st);
    RunComma(rest, st.(field := f));
  }

  /** One encoded row and its line feed close exactly that row. */
  lemma {:induction false} RunEncodedRow(fields: Row, rest: string, rows: seq<Row>, row: Row)
    requires |fields| >= 1
    ensures Run(Join(QuoteAll(fields), ",") + "\n" + rest, Scanner(rows, row, "", false))
         == Run(rest, Scanner(rows + [row + fields], [], "", false))
    decreases |fields|
  {
    var f := fields[0];
    if |fields| == 1 {
      assert QuoteAll(fields) == [Quote(f)];
      assert Join(QuoteAll(fields), ",") + "\n" + rest == Quote(f) + ("\n" + rest);
      RunEncodedLast(f, rest, rows, row);
      assert [f] == fields;
    } else {
      var tail := fields[1..];
      var joined := Join(QuoteAll(tail), ",");
      JoinCons(Quote(f), QuoteAll(tail), ",");
      assert QuoteAll(fields) == [Quote(f)] + QuoteAll(tail);
      assert Join(QuoteAll(fields), ",") + "\n" + rest == Quote(f) + ("," + (joined + "\n" + rest));
      RunEncodedField(f, joined + "\n" + rest, rows, row);
      RunEncodedRow(tail, rest, rows, row + [f]);
      AppendFirst(row, fields);
    }
  }

  lemma {:induction false} RunEncoded(rs: seq<Row>, rows: seq<Row>)
    requires RowsNonEmpty(rs)
    ensures Flush(Run(Encode(rs), Scanner(rows, [], "", false))) == rows + rs
    decreases |rs|
  {
    if |rs| == 0 {
      assert rows + rs == rows;
    } else {
      assert Encode(rs) == Join(QuoteAll(rs[0]), ",") + "\n" + Encode(rs[1..]);
      RunEncodedRow(rs[0], Encode(rs[1..]), rows, []);
      assert [] + rs[0] == rs[0];
      RunEncoded(rs[1..], rows + [rs[0]]);
      assert rs == [rs[0]] + rs[1..];
      ConcatAssociative(rows, [rs[0]], rs[1..]);
    }
  }

  /** Reading back an encoding gives the rows that were encoded: commas,
      line breaks and doubled quotes inside quotes are field content. */
  lemma ParseEncode(rs: seq<Row>)
    requires RowsNonEmpty(rs)
    ensures Parse(Encode(rs)) == rs
  {
    RunEncoded(rs, []);
  }

  /** Outside quotes, an ordinary character extends the pending field. */
  lemma RunChar(c: char, rest: string, st: Scanner)
    requires !st.inQuotes && c != '"' && c != ',' && c != '\n' && c != '\r'
    ensures Run([c] + rest, st) == Run(rest, st.(field := st.field + [c]))
  {
    assert Step([c] + rest, st) == Move(1, st.(field := st.field + [c]));
    assert ([c] + rest)[1..] == rest;
  }

  /** Characters that are field content outside quotes. */
  predicate Ordinary(f: string)
  {
    forall k :: 0 <= k < |f| ==> f[k] != '"' && f[k] != ',' && f[k] != '\n' && f[k] != '\r'
  }

  /** Outside quotes, ordinary characters are appended to the pending field. */
  lemma {:induction false} RunOrdinary(f: string, rest: string, st: Scanner)
    requires !st.inQuotes && Ordinary(f)
    ensures Run(f + rest, st) == Run(rest, st.(field := st.field + f))
    decreases |f|
  {
    if |f| == 0 {
      assert f + rest == rest;
      assert st.field + f == st.field;
    } else {
      assert f + rest == [f[0]] + (f[1..] + rest);
      RunChar(f[0], f[1..] + rest, st);
      RunOrdinary(f[1..], rest, st.(field := st.field + [f[0]]));
      AppendFirst(st.field, f);
    }
  }

  /** Outside quotes, a plain field and the comma after it are appended to
      the pending row. */
  lemma RunPlainField(f: string, rest: string, st: Scanner)
    requires !st.inQuotes && st.field == "" && Ordinary(f)
    ensures Run(f + "," + rest, st) == Run(rest, st.(row := st.row + [f]))
  {
    assert f + "," + rest == f + ("," + rest);
    RunOrdinary(f, "," + rest, st);
    assert st.field + f == f;
    RunComma(rest, st.(field := f));
  }

  /** A ledger line whose first field is quoted and whose other two are
      plain, read from the start of a row: the line leaves its three fields
      pending, whatever the quoted name holds. */
  lemma RunQuotedLine(name: string, id: string, net: string, rest: string, rows: seq<Row>)
    requires Ordinary(id) && Ordinary(net)
    ensures Run(Quote(name) + "," + id + "," + net + rest, Scanner(rows, [], "", false))
         == Run(rest, Scanner(rows, [name, id], net, false))
  {
    var st := Scanner(rows, [], "", false);
    var st0 := st.(field := name);
    var st1 := Scanner(rows, [name], "", false);
    var st2 := Scanner(rows, [name, id], "", false);
    var after := id + "," + (net + rest);
    assert Quote(name) + "," + id + "," + net + rest == Quote(name) + ("," + after);
    calc {
      Run(Quote(name) + ("," + after), st);
      { RunQuoted(name, "," + after, st); }
      Run("," + after, st0);
      { RunComma(after, st0);
        assert st0.(row := st0.row + [st0.field], field := "") == st1; }
      Run(after, st1);
      { RunPlainField(id, net + rest, st1);
        assert st1.(row := st1.row + [id]) == st2; }
      Run(net + rest, st2);
      { RunOrdinary(net, rest, st2);
        assert st2.(field := st2.field + net) == Scanner(rows, [name, id], net, false); }
      Run(rest, Scanner(rows, [name, id], net, false));
    }
  }

  /** A ledger line whose first field is quoted and whose other two are
      plain: the quoted name may hold commas, line breaks and quotes (such
      as `"Doe, John",p1,100`), and the line is read as three fields. */
  lemma ParseQuotedName(name: string, id: string, net: string)
    requires Ordinary(id) && Ordinary(net)
    ensures Parse(Quote(name) + "," + id + "," + net) == [[name, id, net]]
  {
    var line := Quote(name) + "," + id + "," + net;
    assert line + "" == line;
    RunQuotedLine(name, id, net, "", []);
    assert [name, id] + [net] == [name, id, net];
  }

  /** Two such lines separated by CR LF are two rows: the CR LF after the
      plain net closes the first row once, with no empty row between. */
  lemma ParseQuotedLines(n1: string, i1: string, v1: string, n2: string, i2: string, v2: string)
    requires Ordinary(i1) && Ordinary(v1) && Ordinary(i2) && Ordinary(v2)
    ensures Parse(Quote(n1) + "," + i1 + "," + v1 + "\r\n" + Quote(n2) + "," + i2 + "," + v2)
         == [[n1, i1, v1], [n2, i2, v2]]
  {
    var line2 := Quote(n2) + "," + i2 + "," + v2;
    var text := Quote(n1) + "," + i1 + "," + v1 + "\r\n" + Quote(n2) + "," + i2 + "," + v2;
    var st1 := Scanner([], [n1, i1], v1, false);
    var st2 := Scanner([[n1, i1, v1]], [], "", false);
    var st3 := Scanner([[n1, i1, v1]], [n2, i2], v2, false);
    assert text == Quote(n1) + "," + i1 + "," + v1 + ("\r\n" + line2);
    calc {
      Run(text, Start);
      { RunQuotedLine(n1, i1, v1, "\r\n" + line2, []); }
      Run("\r\n" + line2, st1);
      { RunLineEnd(line2, st1);
        assert [n1, i1] + [v1] == [n1, i1, v1];
        assert Terminate(st1) == st2; }
      Run(line2, st2);
      { assert line2 + "" == line2;
        RunQuotedLine(n2, i2, v2, "", [[n1, i1, v1]]); }
      Run("", st3);
    }
    assert [n2, i2] + [v2] == [n2, i2, v2];
  }

  // ---------------------------------------------------------------------
  // Unquoted text: lines split at LF, fields split at commas.

  /** Each line split at commas. */
  function SplitFields(lines: seq<string>): (r: seq<Row>)
    ensures |r| == |lines|
  {
    if |lines| == 0 then [] else [Split(lines[0], ',')] + SplitFields(lines[1..])
  }

  /** Reference reading of text with no quotes and no CR: one row per line,
      except that an empty piece after the last line feed is no row. */
  function PlainRows(text: string): seq<Row>
  {
    var lines := Split(text, '\n');
    var kept := if lines[|lines| - 1] == "" then lines[..|lines| - 1] else lines;
    SplitFields(kept)
  }

  predicate Clean(s: string)
  {
    ',' !in s && '\n' !in s
  }

  /** Extending the last piece commutes with a fixed first piece. */
  lemma ExtendLastPiece(a: string, rb: seq<string>, y: char)
    requires |rb| >= 1
    ensures var r := [a] + rb;
      r[..|r| - 1] + [r[|r| - 1] + [y]] == [a] + (rb[..|rb| - 1] + [rb[|rb| - 1] + [y]])
  {
    var r := [a] + rb;
    assert r[..|r| - 1] == [a] + rb[..|rb| - 1];
    ConcatAssociative([a], rb[..|rb| - 1], [rb[|rb| - 1] + [y]]);
  }

  /** A separator at the end starts an empty last piece. */
  lemma SplitSnocSeparator(x: string, c: char)
    ensures Split(x + [c], c) == Split(x, c) + [""]
  {
    assert (x + [c])[..|x|] == x;
  }

  /** Any other character extends the last piece. */
  lemma SplitSnocOther(x: string, y: char, c: char)
    requires y != c
    ensures Split(x + [y], c) == Split(x, c)[..|Split(x, c)| - 1] + [Split(x, c)[|Split(x, c)| - 1] + [y]]
  {
    assert (x + [y])[..|x|] == x;
  }

  lemma SplitBeforeSeparator(a: string, b: string, c: char)
    requires Split(a + [c] + b, c) == [a] + Split(b, c)
    ensures Split(a + [c] + b + [c], c) == [a] + Split(b + [c], c)
  {
    var rb := Split(b, c);
    SplitSnocSeparator(a + [c] + b, c);
    SplitSnocSeparator(b, c);
    ConcatAssociative([a], rb, [""]);
  }

  lemma SplitBeforeOther(a: string, b: string, y: char, c: char)
    requires y != c
    requires Split(a + [c] + b, c) == [a] + Split(b, c)
    ensures Split(a + [c] + b + [y], c) == [a] + Split(b + [y], c)
  {
    var rb := Split(b, c);
    SplitSnocOther(a + [c] + b, y, c);
    SplitSnocOther(b, y, c);
    ExtendLastPiece(a, rb, y);
  }

  lemma {:induction false} SplitBefore(a: string, b: string, c: char)
    requires c !in a
    ensures Split(a + [c] + b, c) == [a] + Split(b, c)
    decreases |b|
  {
    if |b| == 0 {
      var s := a + [c] + b;
      assert s[..|s| - 1] == a;
      SplitWithout(a, c);
    } else {
      var b', y := b[..|b| - 1], b[|b| - 1];
      SplitBefore(a, b', c);
      if y == c {
        SplitBeforeSeparator(a, b', c);
      } else {
        SplitBeforeOther(a, b', y, c);
      }
      assert b' + [y] == b;
      assert a + [c] + b' + [y] == a + [c] + b;
    }
  }

  lemma {:induction false} JoinClean(parts: seq<string>)
    requires |parts| >= 1
    requires forall k :: 0 <= k < |parts| ==> Clean(parts[k])
    ensures '\n' !in Join(parts, ",")
    ensures Join(parts, ",") == "" <==> parts == [""]
    decreases |parts|
  {
    if |parts| > 1 {
      JoinClean(parts[..|parts| - 1]);
    }
  }

  lemma {:induction false} SplitFieldsAppend(a: seq<string>, b: seq<string>)
    ensures SplitFields(a + b) == SplitFields(a) + SplitFields(b)
    decreases |a|
  {
    if |a| > 0 {
      SplitFieldsAppend(a[1..], b);
      assert (a + b)[1..] == a[1..] + b;
    } else {
      assert a + b == b;
    }
  }

  /** A finished line in front of the rest of the text is one more row. */
  lemma PlainRowsLine(line: string, rest: string)
    requires '\n' !in line
    ensures PlainRows(line + "\n" + rest) == [Split(line, ',')] + PlainRows(rest)
  {
    SplitBefore(line, rest, '\n');
    var lines := Split(rest, '\n');
    var all := [line] + lines;
    assert all[|all| - 1] == lines[|lines| - 1];
    if lines[|lines| - 1] == "" {
      assert all[..|all| - 1] == [line] + lines[..|lines| - 1];
      SplitFieldsAppend([line], lines[..|lines| - 1]);
    } else {
      SplitFieldsAppend([line], lines);
    }
  }

  /** A single line is one row, unless it is empty. */
  lemma PlainRowsOneLine(line: string)
    requires '\n' !in line
    ensures PlainRows(line) == if line == "" then [] else [Split(line, ',')]
  {
    SplitWithout(line, '\n');
    assert [line][..0] == [];
  }

  lemma PartsClean(row: Row, field: string)
    requires forall k :: 0 <= k < |row| ==> Clean(row[k])
    requires Clean(field)
    ensures forall k :: 0 <= k < |row + [field]| ==> Clean((row + [field])[k])
  {
  }

  lemma PlainEndEmpty(rows: seq<Row>)
    ensures Flush(Scanner(rows, [], "", false)) == rows
    ensures PlainRows(Join([""], ",")) == []
  {
    PlainRowsOneLine("");
  }

  lemma PlainEndLine(rows: seq<Row>, row: Row, field: string)
    requires forall k :: 0 <= k < |row| ==> Clean(row[k])
    requires Clean(field)
    requires |row| > 0 || field != ""
    ensures Flush(Scanner(rows, row, field, false)) == rows + PlainRows(Join(row + [field], ","))
  {
    var parts := row + [field];
    var line := Join(parts, ",");
    PartsClean(row, field);
    JoinClean(parts);
    assert parts != [""];
    PlainRowsOneLine(line);
    SplitJoin(parts, ',');
  }

  /** At the end of quote-free input the pending line is the last row,
      unless it is empty. */
  lemma PlainEnd(rows: seq<Row>, row: Row, field: string)
    requires forall k :: 0 <= k < |row| ==> Clean(row[k])
    requires Clean(field)
    ensures Flush(Scanner(rows, row, field, false)) == rows + PlainRows(Join(row + [field], ","))
  {
    if |row| == 0 && field == "" {
      calc {
        rows + PlainRows(Join(row + [field], ","));
        { assert row + [field] == [""]; }
        rows + PlainRows(Join([""], ","));
        { PlainEndEmpty(rows); }
        rows + [];
        { PlainEndEmpty(rows); }
        Flush(Scanner(rows, row, field, false));
      }
    } else {
      PlainEndLine(rows, row, field);
    }
  }

  lemma JoinComma(parts: seq<string>)
    requires |parts| >= 1
    ensures Join(parts + [""], ",") == Join(parts, ",") + ","
  {
    assert (parts + [""])[..|parts|] == parts;
  }

  lemma JoinExtend(row: Row, field: string, c: char)
    ensures Join(row + [field + [c]], ",") == Join(row + [field], ",") + [c]
  {
    if |row| > 0 {
      assert (row + [field + [c]])[..|row|] == row;
      assert (row + [field])[..|row|] == row;
    }
  }

  /** A line feed ends the pending line as one row of the reference. */
  lemma PlainBreak(rest: string, rows: seq<Row>, row: Row, field: string)
    requires forall k :: 0 <= k < |row| ==> Clean(row[k])
    requires Clean(field)
    requires Flush(Run(rest, Terminate(Scanner(rows, row, field, false))))
          == rows + [row + [field]] + PlainRows(rest)
    ensures Flush(Run("\n" + rest, Scanner(rows, row, field, false)))
         == rows + PlainRows(Join(row + [field], ",") + "\n" + rest)
  {
    var parts := row + [field];
    var line := Join(parts, ",");
    PartsClean(row, field);
    JoinClean(parts);
    SplitJoin(parts, ',');
    PlainRowsLine(line, rest);
    assert PlainRows(line + "\n" + rest) == [parts] + PlainRows(rest);
    RunBreak(rest, Scanner(rows, row, field, false));
    ConcatAssociative(rows, [parts], PlainRows(rest));
  }

  /** A comma extends the pending line by one more field. */
  lemma PlainComma(rest: string, rows: seq<Row>, row: Row, field: string)
    requires Flush(Run(rest, Scanner(rows, row + [field], "", false)))
          == rows + PlainRows(Join(row + [field] + [""], ",") + rest)
    ensures Flush(Run("," + rest, Scanner(rows, row, field, false)))
         == rows + PlainRows(Join(row + [field], ",") + "," + rest)
  {
    RunComma(rest, Scanner(rows, row, field, false));
    JoinComma(row + [field]);
  }

  /** An ordinary character extends the pending field. */
  lemma PlainChar(c: char, rest: string, rows: seq<Row>, row: Row, field: string)
    requires c != '"' && c != ',' && c != '\n' && c != '\r'
    requires Flush(Run(rest, Scanner(rows, row, field + [c], false)))
          == rows + PlainRows(Join(row + [field + [c]], ",") + rest)
    ensures Flush(Run([c] + rest, Scanner(rows, row, field, false)))
         == rows + PlainRows(Join(row + [field], ",") + [c] + rest)
  {
    RunChar(c, rest, Scanner(rows, row, field, false));
    JoinExtend(row, field, c);
  }

  /** The scanner on quote-free, CR-free text agrees with the reference,
      reading the pending row and field as the start of the current line. */
  lemma {:induction false} RunPlain(text: string, rows: seq<Row>, row: Row, field: string)
    requires '"' !in text && '\r' !in text
    requires forall k :: 0 <= k < |row| ==> Clean(row[k])
    requires Clean(field)
    ensures Flush(Run(text, Scanner(rows, row, field, false)))
         == rows + PlainRows(Join(row + [field], ",") + text)
    decreases |text|
  {
    var line := Join(row + [field], ",");
    if |text| == 0 {
      assert line + text == line;
      PlainEnd(rows, row, field);
    } else {
      var c := text[0];
      var rest := text[1..];
      assert text == [c] + rest;
      assert line + text == line + [c] + rest;
      PartsClean(row, field);
      if c == ',' {
        RunPlain(rest, rows, row + [field], "");
        PlainComma(rest, rows, row, field);
      } else if c == '\n' {
        var empty: Row := [];
        assert empty + [""] == [""];
        RunPlain(rest, rows + [row + [field]], empty, "");
        assert Join(empty + [""], ",") + rest == rest;
        PlainBreak(rest, rows, row, field);
      } else {
        RunPlain(rest, rows, row, field + [c]);
        PlainChar(c, rest, rows, row, field);
      }
    }
  }

  /** Text without quotes or CR is read as its lines split at commas. */
  lemma ParsePlain(text: string)
    requires '"' !in text && '\r' !in text
    ensures Parse(text) == PlainRows(text)
  {
    RunPlain(text, [], [], "");
    assert Join([] + [""], ",") + text == text;
  }

  /** Line breaks written as LF: a CR LF pair and a lone CR each become LF. */
  function NormalizeBreaks(text: string): (r: string)
    ensures '\r' !in r
    ensures '"' !in text ==> '"' !in r
    decreases |text|
  {
    if |text| == 0 then ""
    else if text[0] == '\r' then
      "\n" + NormalizeBreaks(if |text| > 1 && text[1] == '\n' then text[2..] else text[1..])
    else [text[0]] + NormalizeBreaks(text[1..])
  }

  lemma {:induction false} RunNormalized(text: string, st: Scanner)
    requires '"' !in text && !st.inQuotes
    ensures Run(text, st) == Run(NormalizeBreaks(text), st)
    decreases |text|
  {
    if |text| > 0 {
      var n := NormalizeBreaks(text);
      var c := text[0];
      var m := Step(text, st);
      assert !m.next.inQuotes;
      assert '"' !in text[m.width..];
      RunNormalized(text[m.width..], m.next);
      if c == '\r' {
        assert n == "\n" + NormalizeBreaks(text[m.width..]);
        RunBreak(NormalizeBreaks(text[m.width..]), st);
      } else {
        assert n == [c] + NormalizeBreaks(text[1..]);
        assert Step(n, st) == m;
        assert n[1..] == NormalizeBreaks(text[1..]);
      }
    }
  }

  /** Outside quotes CR LF, lone CR and LF all end a row the same way, so
      CR LF never produces an empty row; quote-free text is read as its
      LF-normalised lines split at commas. */
  lemma ParseUnquoted(text: string)
    requires '"' !in text
    ensures Parse(text) == Parse(NormalizeBreaks(text)) == PlainRows(NormalizeBreaks(text))
  {
    RunNormalized(text, Start);
    ParsePlain(NormalizeBreaks(text));
  }

  // ---------------------------------------------------------------------
  // End of input.

  /** Appending LF to text that ends outside quotes inside a row just
      terminates that row. */
  lemma {:induction false} RunThenBreak(text: string, st: Scanner)
    requires !Run(text, st).inQuotes
    requires |Run(text, st).field| > 0 || |Run(text, st).row| > 0
    ensures Run(text + "\n", st) == Terminate(Run(text, st))
    decreases |text|
  {
    var t := text + "\n";
    if |text| == 0 {
      assert t == "\n" + "";
      RunBreak("", st);
    } else {
      var m := Step(text, st);
      if |text| == 1 && text[0] == '\r' && !st.inQuotes {
        assert false;
      }
      assert Step(t, st) == m;
      assert t[m.width..] == text[m.width..] + "\n";
      RunThenBreak(text[m.width..], m.next);
    }
  }

  /** Content after the last line break is flushed as the last row: the
      result is as if the text had ended with a line feed. */
  /** Inside quotes, every character other than a quote joins the field. */
  lemma {:induction false} RunInQuotes(f: string, st: Scanner)
    requires st.inQuotes && '"' !in f
    ensures Run(f, st) == st.(field := st.field + f)
    decreases |f|
  {
    if |f| == 0 {
      assert st.field + f == st.field;
    } else {
      assert f == [f[0]] + f[1..];
      RunQuotedChar(f[0], f[1..], st);
      RunInQuotes(f[1..], st.(field := st.field + [f[0]]));
      assert st.field + [f[0]] + f[1..] == st.field + f;
    }
  }

  /** A quote that is never closed runs to the end of the text, and what
      follows it is still emitted as the last row: `"abc` reads as one row
      holding `abc`, and a lone quote gives no row. */
  lemma ParseUnclosedQuote(f: string)
    requires '"' !in f
    ensures Parse("\"" + f) == if f == "" then [] else [[f]]
  {
    var st := Start.(inQuotes := true);
    assert Step("\"" + f, Start) == Move(1, st);
    assert ("\"" + f)[1..] == f;
    RunInQuotes(f, st);
    assert Run("\"" + f, Start) == st.(field := f);
    if f != "" {
      assert Terminate(st.(field := f)).rows == [[] + [f]];
      assert [] + [f] == [f];
    }
  }

  lemma ParseFlushesTail(text: string)
    requires !Run(text, Start).inQuotes
    requires |Run(text, Start).field| > 0 || |Run(text, Start).row| > 0
    ensures Parse(text + "\n") == Parse(text)
  {
    RunThenBreak(text, Start);
  }

}

=== FILE: ledger.dfy ===
/** The ledger built from the parsed rows by the upload handler: the header
    gate, the row skip policy, aggregation keyed by the trimmed player
    identifier, display names, and the order of the player list. */
module Ledger {
  import opened Common
  import opened Text
  import opened Sorting
  import Csv
  import Numbers

  type Row = Csv.Row

  const NicknameColumn := "player_nickname"
  const IdColumn := "player_id"
  const NetColumn := "net"
  const UnknownName := "Unknown"
  const NameSeparator := ", "

  /** Where the three required columns sit in the header. */
  datatype Columns = Columns(nickname: nat, playerId: nat, net: nat)

  /** The running total kept for one identifier: the names seen for it, in
      first-seen order, and the sum of its nets so far. */
  datatype Entry = Entry(id: string, names: seq<string>, net: real)

  /** One line of the totals table. */
  datatype Player = Player(id: string, nickname: string, net: real)

  function ByNet(p: Player): real
  {
    p.net
  }

  /** Column `k` is the first whose trimmed header is `name`. */
  predicate FirstColumn(header: Row, k: nat, name: string)
  {
    k < |header| && Trim(header[k]) == name
    && forall m :: 0 <= m < k ==> Trim(header[m]) != name
  }

  /** No column's trimmed header is `name`. */
  predicate NoColumn(header: Row, name: string)
  {
    forall m :: 0 <= m < |header| ==> Trim(header[m]) != name
  }

  function TrimAll(row: Row): Row
  {
    seq(|row|, k requires 0 <= k < |row| => Trim(row[k]))
  }

  /** The header gate: each required column is located by the first
      trimmed header cell that names it, and the upload is refused exactly
      when one of the three names is missing. */
  function FindColumns(header: Row): (r: Option<Columns>)
    ensures r.None? <==> NoColumn(header, NicknameColumn) || NoColumn(header, IdColumn) || NoColumn(header, NetColumn)
    ensures r.Some? ==> FirstColumn(header, r.value.nickname, NicknameColumn)
                        && FirstColumn(header, r.value.playerId, IdColumn)
                        && FirstColumn(header, r.value.net, NetColumn)
  {
    var trimmed := TrimAll(header);
    assert forall m :: 0 <= m < |header| ==> trimmed[m] == Trim(header[m]);
    var n := IndexOf(trimmed, NicknameColumn);
    var p := IndexOf(trimmed, IdColumn);
    var v := IndexOf(trimmed, NetColumn);
    if n.Some? && p.Some? && v.Some? then Some(Columns(n.value, p.value, v.value)) else None
  }

  /** The cell in column `k`, missing when the row is shorter. */
  function Cell(row: Row, k: nat): Option<string>
  {
    if k < |row| then Some(row[k]) else None
  }

  /** A row without any non-blank cell, the empty row included. */
  predicate BlankRow(row: Row)
  {
    forall k :: 0 <= k < |row| ==> Trim(row[k]) == ""
  }

  /** The trimmed identifier a data row is counted under, or `None` when
      its identifier cell is missing or blank and the row is skipped. */
  function RowId(row: Row, cols: Columns): (r: Option<string>)
    ensures r.None? <==> cols.playerId >= |row| || AllSpace(row[cols.playerId])
    ensures r.Some? ==> r.value == Trim(row[cols.playerId]) && r.value != ""
  {
    if cols.playerId < |row| then
      TrimEmpty(row[cols.playerId]);
      if Trim(row[cols.playerId]) != "" then Some(Trim(row[cols.playerId])) else None
    else None
  }

  /** The handler's two skip tests in order: an empty or all-blank row
      first, then a missing or blank identifier. A row is skipped exactly
      when its identifier cell is missing or blank, so the blank-row test
      never decides. */
  function Screen(row: Row, cols: Columns): (r: Option<string>)
    ensures r.None? <==> cols.playerId >= |row| || AllSpace(row[cols.playerId])
    ensures r.Some? ==> r.value == Trim(row[cols.playerId]) && r.value != ""
  {
    if |row| == 0 || BlankRow(row) then
      assert cols.playerId < |row| ==> AllSpace(row[cols.playerId]) by {
        if cols.playerId < |row| {
          TrimEmpty(row[cols.playerId]);
        }
      }
      None
    else RowId(row, cols)
  }

  /** The aggregation may test the identifier alone. */
  lemma ScreenIsRowId(row: Row, cols: Columns)
    ensures Screen(row, cols) == RowId(row, cols)
  {
  }

  /** The trimmed nickname cell, `Unknown` when it is missing or blank;
      never empty. */
  function RowNickname(row: Row, cols: Columns): (r: string)
    ensures r != ""
    ensures cols.nickname < |row| && !AllSpace(row[cols.nickname]) ==> r == Trim(row[cols.nickname])
    ensures cols.nickname >= |row| || AllSpace(row[cols.nickname]) ==> r == UnknownName
  {
    match Cell(row, cols.nickname)
    case Some(cell) =>
      TrimEmpty(cell);
      if Trim(cell) != "" then Trim(cell) else UnknownName
    case None => UnknownName
  }

  function RowNet(row: Row, cols: Columns): real
  {
    Numbers.ParseNumber(Cell(row, cols.net))
  }

  /** `Set.prototype.add` guarded by a truthiness test on the name. */
  function AddName(names: seq<string>, name: string): seq<string>
  {
    if Named(name) && name !in names then names + [name] else names
  }

  /** A name that JavaScript treats as truthy. */
  predicate Named(name: string)
  {
    name != ""
  }

  /** What a counted row contributes to the ledger: its trimmed identifier,
      its display name and its parsed net. */
  datatype Sighting = Sighting(id: string, name: string, net: real)

  function SightingNet(s: Sighting): real
  {
    s.net
  }

  /** The sighting a data row makes, `None` when the row is skipped. */
  function Sight(row: Row, cols: Columns): Option<Sighting>
  {
    match RowId(row, cols)
    case None => None
    case Some(id) => Some(Sighting(id, RowNickname(row, cols), RowNet(row, cols)))
  }

  /** The sightings of the data rows, in row order. */
  function Sightings(rows: seq<Row>, cols: Columns): seq<Sighting>
    decreases |rows|
  {
    if |rows| == 0 then []
    else
      var rest := Sightings(rows[..|rows| - 1], cols);
      match Sight(rows[|rows| - 1], cols)
      case None => rest
      case Some(s) => rest + [s]
  }

  function Ids(entries: seq<Entry>): (r: seq<string>)
    ensures |r| == |entries|
  {
    seq(|entries|, k requires 0 <= k < |entries| => entries[k].id)
  }

  /** One sighting of `id`: the `Map` entry is created on first sight with a
      zero net, then the net is added and the name remembered. */
  function Record(entries: seq<Entry>, id: string, name: string, net: real): seq<Entry>
  {
    match IndexOf(Ids(entries), id)
    case Some(k) =>
      entries[k := Entry(id, AddName(entries[k].names, name), entries[k].net + net)]
    case None =>
      entries + [Entry(id, AddName([], name), 0.0 + net)]
  }

  /** The entries after the sightings `ss`, in `Map` insertion order. */
  function Tally(ss: seq<Sighting>): seq<Entry>
    decreases |ss|
  {
    if |ss| == 0 then []
    else
      var s := ss[|ss| - 1];
      Record(Tally(ss[..|ss| - 1]), s.id, s.name, s.net)
  }

  /** The `forEach` over the data rows. */
  function Accumulate(rows: seq<Row>, cols: Columns): seq<Entry>
  {
    Tally(Sightings(rows, cols))
  }

  /** `formatNicknames`: the non-empty names joined with a comma and a
      space, `Unknown` when there is none; never empty. */
  function FormatNicknames(names: seq<string>): (r: string)
    ensures |r| > 0
  {
    var kept := Filter(names, Named);
    if |kept| == 0 then UnknownName
    else
      assert kept[|kept| - 1] != "";
      Join(kept, NameSeparator)
  }

  function ToPlayer(e: Entry): Player
  {
    Player(e.id, FormatNicknames(e.names), e.net)
  }

  function Players(entries: seq<Entry>): (r: seq<Player>)
    ensures |r| == |entries|
  {
    seq(|entries|, k requires 0 <= k < |entries| => ToPlayer(entries[k]))
  }

  /** The table rows of `entries`, largest net first, ties in entry order. */
  function Rank(entries: seq<Entry>): (ps: seq<Player>)
    ensures NonIncreasing(ps, ByNet)
    ensures multiset(ps) == multiset(Players(entries))
  {
    SortDesc(Players(entries), ByNet)
  }

  /** The player list: one line per identifier, largest net first, ties in
      first-seen order. */
  function Aggregate(rows: seq<Row>, cols: Columns): (ps: seq<Player>)
    ensures NonIncreasing(ps, ByNet)
    ensures multiset(ps) == multiset(Players(Accumulate(rows, cols)))
  {
    Rank(Accumulate(rows, cols))
  }

  // ---------------------------------------------------------------------
  // Reference definitions, sighting by sighting

  /** The identifiers of the sightings, repeats kept. */
  function SeenIds(ss: seq<Sighting>): (r: seq<string>)
    ensures |r| == |ss|
  {
    seq(|ss|, k requires 0 <= k < |ss| => ss[k].id)
  }

  /** What one sighting adds to the net of `id`. */
  function Share(id: string): Sighting -> real
  {
    (s: Sighting) => if s.id == id then s.net else 0.0
  }

  function NetOf(ss: seq<Sighting>, id: string): real
  {
    Sum(ss, Share(id))
  }

  /** The non-empty names sighted under `id`, in order, repeats kept. */
  function NamesOf(ss: seq<Sighting>, id: string): seq<string>
    decreases |ss|
  {
    if |ss| == 0 then []
    else
      var s := ss[|ss| - 1];
      NamesOf(ss[..|ss| - 1], id) + (if s.id == id && Named(s.name) then [s.name] else [])
  }

  /** `e` holds the sum of the nets and the distinct names sighted under
      its identifier. */
  predicate Matches(e: Entry, ss: seq<Sighting>)
  {
    e.net == NetOf(ss, e.id) && e.names == Dedup(NamesOf(ss, e.id))
  }

  /** Every entry matches (stated entry by entry, from the end). */
  predicate AllMatch(entries: seq<Entry>, ss: seq<Sighting>)
    decreases |entries|
  {
    |entries| == 0
    || (AllMatch(entries[..|entries| - 1], ss) && Matches(entries[|entries| - 1], ss))
  }

  lemma {:induction false} AllMatchAt(entries: seq<Entry>, ss: seq<Sighting>, k: nat)
    requires AllMatch(entries, ss) && k < |entries|
    ensures Matches(entries[k], ss)
    decreases |entries|
  {
    if k < |entries| - 1 {
      AllMatchAt(entries[..|entries| - 1], ss, k);
    }
  }

  lemma {:induction false} AllMatchIntro(entries: seq<Entry>, ss: seq<Sighting>)
    requires forall k :: 0 <= k < |entries| ==> Matches(entries[k], ss)
    ensures AllMatch(entries, ss)
    decreases |entries|
  {
    if |entries| > 0 {
      AllMatchIntro(entries[..|entries| - 1], ss);
    }
  }

  /** `entries` holds, in first-seen order, one matching entry per sighted
      identifier. */
  predicate Tallies(entries: seq<Entry>, ss: seq<Sighting>)
  {
    Ids(entries) == Dedup(SeenIds(ss)) && AllMatch(entries, ss)
  }

  /** An identifier never sighted has a zero net and no names. */
  lemma {:induction false} Untouched(ss: seq<Sighting>, id: string)
    requires id !in SeenIds(ss)
    ensures NetOf(ss, id) == 0.0
    ensures NamesOf(ss, id) == []
    decreases |ss|
  {
    if |ss| > 0 {
      var init := ss[..|ss| - 1];
      assert SeenIds(init) == SeenIds(ss)[..|init|];
      assert SeenIds(ss)[|init|] == ss[|init|].id;
      Untouched(init, id);
    }
  }

  /** The reference sums and name lists after one more sighting. */
  lemma Extend(ss: seq<Sighting>, s: Sighting, id: string)
    ensures SeenIds(ss + [s]) == SeenIds(ss) + [s.id]
    ensures NetOf(ss + [s], id) == NetOf(ss, id) + Share(id)(s)
    ensures NamesOf(ss + [s], id) == if s.id == id && Named(s.name) then NamesOf(ss, id) + [s.name] else NamesOf(ss, id)
  {
    assert (ss + [s])[..|ss|] == ss;
    assert NamesOf(ss, id) + [] == NamesOf(ss, id);
  }

  lemma EntryStays(e: Entry, ss: seq<Sighting>, s: Sighting)
    requires Matches(e, ss)
    requires s.id != e.id
    ensures Matches(e, ss + [s])
  {
    Extend(ss, s, e.id);
  }

  lemma EntryGrows(e: Entry, ss: seq<Sighting>, s: Sighting)
    requires Matches(e, ss)
    requires s.id == e.id
    ensures Matches(Entry(e.id, AddName(e.names, s.name), e.net + s.net), ss + [s])
  {
    Extend(ss, s, e.id);
    if Named(s.name) {
      DedupAppend(NamesOf(ss, e.id), s.name);
    }
  }

  lemma EntryStarts(ss: seq<Sighting>, s: Sighting)
    requires s.id !in SeenIds(ss)
    ensures Matches(Entry(s.id, AddName([], s.name), 0.0 + s.net), ss + [s])
  {
    Extend(ss, s, s.id);
    Untouched(ss, s.id);
    if Named(s.name) {
      DedupAppend([], s.name);
      assert [] + [s.name] == [s.name];
    }
  }

  lemma IdsUpdate(entries: seq<Entry>, k: nat, e: Entry)
    requires k < |entries| && e.id == entries[k].id
    ensures Ids(entries[k := e]) == Ids(entries)
  {
  }

  lemma IdsAppend(entries: seq<Entry>, e: Entry)
    ensures Ids(entries + [e]) == Ids(entries) + [e.id]
  {
  }

  /** One more sighting adds its identifier to the reference list. */
  lemma ExtendIds(ss: seq<Sighting>, s: Sighting)
    ensures Dedup(SeenIds(ss + [s]))
         == if s.id in SeenIds(ss) then Dedup(SeenIds(ss)) else Dedup(SeenIds(ss)) + [s.id]
  {
    Extend(ss, s, s.id);
    DedupAppend(SeenIds(ss), s.id);
  }

  lemma RecordSeen(entries: seq<Entry>, id: string, name: string, net: real, k: nat)
    requires IndexOf(Ids(entries), id) == Some(k)
    ensures k < |entries| && entries[k].id == id
    ensures Record(entries, id, name, net) == entries[k := Entry(id, AddName(entries[k].names, name), entries[k].net + net)]
  {
    assert Ids(entries)[k] == id;
  }

  lemma RecordNew(entries: seq<Entry>, id: string, name: string, net: real)
    requires IndexOf(Ids(entries), id).None?
    ensures id !in Ids(entries)
    ensures Record(entries, id, name, net) == entries + [Entry(id, AddName([], name), 0.0 + net)]
  {
  }

  lemma SeenMatches(entries: seq<Entry>, ss: seq<Sighting>, s: Sighting, k: nat, e: Entry)
    requires AllMatch(entries, ss) && Distinct(Ids(entries))
    requires k < |entries| && s.id == entries[k].id
    requires e == Entry(s.id, AddName(entries[k].names, s.name), entries[k].net + s.net)
    ensures AllMatch(entries[k := e], ss + [s])
  {
    var ids := Ids(entries);
    var entries' := entries[k := e];
    forall m | 0 <= m < |entries'|
      ensures Matches(entries'[m], ss + [s])
    {
      AllMatchAt(entries, ss, m);
      if m != k {
        assert ids[m] != ids[k];
        EntryStays(entries[m], ss, s);
      } else {
        EntryGrows(entries[k], ss, s);
      }
    }
    AllMatchIntro(entries', ss + [s]);
  }

  lemma TalliesSeen(entries: seq<Entry>, ss: seq<Sighting>, s: Sighting, k: nat)
    requires Tallies(entries, ss)
    requires IndexOf(Ids(entries), s.id) == Some(k)
    ensures Tallies(Record(entries, s.id, s.name, s.net), ss + [s])
  {
    RecordSeen(entries, s.id, s.name, s.net, k);
    var e := Entry(s.id, AddName(entries[k].names, s.name), entries[k].net + s.net);
    ExtendIds(ss, s);
    IdsUpdate(entries, k, e);
    SeenMatches(entries, ss, s, k, e);
  }

  /** A sighting of another identifier leaves every entry matching. */
  lemma {:induction false} AllMatchStays(entries: seq<Entry>, ss: seq<Sighting>, s: Sighting)
    requires AllMatch(entries, ss)
    requires forall m :: 0 <= m < |entries| ==> entries[m].id != s.id
    ensures AllMatch(entries, ss + [s])
    decreases |entries|
  {
    if |entries| > 0 {
      AllMatchStays(entries[..|entries| - 1], ss, s);
      EntryStays(entries[|entries| - 1], ss, s);
    }
  }

  lemma NewMatches(entries: seq<Entry>, ss: seq<Sighting>, s: Sighting, e: Entry)
    requires AllMatch(entries, ss)
    requires s.id !in Ids(entries) && s.id !in SeenIds(ss)
    requires e == Entry(s.id, AddName([], s.name), 0.0 + s.net)
    ensures AllMatch(entries + [e], ss + [s])
  {
    assert forall m :: 0 <= m < |entries| ==> Ids(entries)[m] == entries[m].id;
    AllMatchStays(entries, ss, s);
    EntryStarts(ss, s);
    assert (entries + [e])[..|entries|] == entries;
  }

  lemma TalliesNew(entries: seq<Entry>, ss: seq<Sighting>, s: Sighting)
    requires Tallies(entries, ss)
    requires IndexOf(Ids(entries), s.id).None?
    ensures Tallies(Record(entries, s.id, s.name, s.net), ss + [s])
  {
    RecordNew(entries, s.id, s.name, s.net);
    var e := Entry(s.id, AddName([], s.name), 0.0 + s.net);
    ExtendIds(ss, s);
    IdsAppend(entries, e);
    assert s.id !in SeenIds(ss);
    NewMatches(entries, ss, s, e);
  }

  lemma RecordTallies(entries: seq<Entry>, ss: seq<Sighting>, s: Sighting)
    requires Tallies(entries, ss)
    ensures Tallies(Record(entries, s.id, s.name, s.net), ss + [s])
  {
    match IndexOf(Ids(entries), s.id)
    case Some(k) => TalliesSeen(entries, ss, s, k);
    case None => TalliesNew(entries, ss, s);
  }

  /** The `Map` agrees with the sighting-by-sighting reference: one entry per
      sighted identifier, in first-seen order, holding the sum of its nets
      and its distinct names in first-seen order. */
  lemma {:induction false} TallyTallies(ss: seq<Sighting>)
    ensures Tallies(Tally(ss), ss)
    decreases |ss|
  {
    if |ss| > 0 {
      var init := ss[..|ss| - 1];
      var s := ss[|ss| - 1];
      assert init + [s] == ss;
      TallyTallies(init);
      RecordTallies(Tally(init), init, s);
    }
  }

  // ---------------------------------------------------------------------
  // Reference definitions, row by row

  /** Row `k` of `rows` is counted under `id`. */
  predicate CountedAt(rows: seq<Row>, cols: Columns, id: string, k: int)
  {
    0 <= k < |rows| && RowId(rows[k], cols) == Some(id)
  }

  /** The identifiers of the counted rows, in row order, repeats kept. */
  function RowIds(rows: seq<Row>, cols: Columns): (r: seq<string>)
    ensures forall id :: id in r <==> exists k :: CountedAt(rows, cols, id, k)
    decreases |rows|
  {
    if |rows| == 0 then []
    else
      var init := rows[..|rows| - 1];
      var rest := RowIds(init, cols);
      var last := RowId(rows[|rows| - 1], cols);
      var r := if last.Some? then rest + [last.value] else rest;
      assert forall id :: id in r <==> exists k :: CountedAt(rows, cols, id, k) by {
        forall id
          ensures id in r <==> exists k :: CountedAt(rows, cols, id, k)
        {
          if id in rest {
            var k :| CountedAt(init, cols, id, k);
            assert CountedAt(rows, cols, id, k);
          }
          if last == Some(id) {
            assert CountedAt(rows, cols, id, |rows| - 1);
          }
          if exists k :: CountedAt(rows, cols, id, k) {
            var k :| CountedAt(rows, cols, id, k);
            if k < |init| {
              assert init[k] == rows[k];
              assert CountedAt(init, cols, id, k);
            }
          }
        }
      }
      r
  }

  /** What one row adds to the net of `id`. */
  function Stake(cols: Columns, id: string): Row -> real
  {
    (row: Row) => if RowId(row, cols) == Some(id) then RowNet(row, cols) else 0.0
  }

  /** The sum of the nets of the rows counted under `id`. */
  function NetFor(rows: seq<Row>, cols: Columns, id: string): real
  {
    Sum(rows, Stake(cols, id))
  }

  /** The nicknames of the rows counted under `id`, in row order: present
      exactly when some row is counted under `id`, and never empty. */
  function NamesSeen(rows: seq<Row>, cols: Columns, id: string): (r: seq<string>)
    ensures forall name :: name in r ==> name != ""
    ensures |r| > 0 <==> exists k :: CountedAt(rows, cols, id, k)
    decreases |rows|
  {
    if |rows| == 0 then []
    else
      var init := rows[..|rows| - 1];
      var rest := NamesSeen(init, cols, id);
      assert forall k :: 0 <= k < |init| ==> rows[k] == init[k];
      var row := rows[|rows| - 1];
      var r := if RowId(row, cols) == Some(id) then rest + [RowNickname(row, cols)] else rest;
      assert |r| > 0 <==> exists k :: CountedAt(rows, cols, id, k) by {
        if exists k :: CountedAt(rows, cols, id, k) {
          var k :| CountedAt(rows, cols, id, k);
          if k < |init| {
            assert CountedAt(init, cols, id, k);
          }
        }
        if |rest| > 0 {
          var k :| CountedAt(init, cols, id, k);
          assert CountedAt(rows, cols, id, k);
        } else if RowId(row, cols) == Some(id) {
          assert CountedAt(rows, cols, id, |rows| - 1);
        }
      }
      r
  }

  function NamesFor(rows: seq<Row>, cols: Columns, id: string): seq<string>
  {
    Dedup(NamesSeen(rows, cols, id))
  }

  /** What one row adds to the table's total. */
  function Counted(cols: Columns): Row -> real
  {
    (row: Row) => if RowId(row, cols).Some? then RowNet(row, cols) else 0.0
  }

  /** The sightings list the counted rows' identifiers. */
  lemma {:induction false} SightingsIds(rows: seq<Row>, cols: Columns)
    ensures SeenIds(Sightings(rows, cols)) == RowIds(rows, cols)
    decreases |rows|
  {
    if |rows| > 0 {
      var init := rows[..|rows| - 1];
      SightingsIds(init, cols);
      match Sight(rows[|rows| - 1], cols)
      case None =>
      case Some(s) => Extend(Sightings(init, cols), s, s.id);
    }
  }

  /** The sightings carry the counted rows' nets. */
  lemma {:induction false} SightingsNet(rows: seq<Row>, cols: Columns, id: string)
    ensures NetOf(Sightings(rows, cols), id) == NetFor(rows, cols, id)
    decreases |rows|
  {
    if |rows| > 0 {
      var init := rows[..|rows| - 1];
      SightingsNet(init, cols, id);
      match Sight(rows[|rows| - 1], cols)
      case None =>
      case Some(s) => Extend(Sightings(init, cols), s, id);
    }
  }

  /** The sightings carry the counted rows' nicknames. */
  lemma {:induction false} SightingsNames(rows: seq<Row>, cols: Columns, id: string)
    ensures NamesOf(Sightings(rows, cols), id) == NamesSeen(rows, cols, id)
    decreases |rows|
  {
    if |rows| > 0 {
      var init := rows[..|rows| - 1];
      SightingsNames(init, cols, id);
      match Sight(rows[|rows| - 1], cols)
      case None =>
      case Some(s) => Extend(Sightings(init, cols), s, id);
    }
  }

  /** The sightings' nets add up to the counted rows' nets. */
  lemma {:induction false} SightingsTotal(rows: seq<Row>, cols: Columns)
    ensures Sum(Sightings(rows, cols), SightingNet) == Sum(rows, Counted(cols))
    decreases |rows|
  {
    if |rows| > 0 {
      var init := rows[..|rows| - 1];
      SightingsTotal(init, cols);
      match Sight(rows[|rows| - 1], cols)
      case None =>
      case Some(s) =>
        var ss := Sightings(init, cols);
        assert (ss + [s])[..|ss|] == ss;
    }
  }

  /** `e` holds its identifier's net and distinct nicknames, summed and
      collected row by row. */
  predicate RowMatches(e: Entry, rows: seq<Row>, cols: Columns)
  {
    e.net == NetFor(rows, cols, e.id) && e.names == NamesFor(rows, cols, e.id)
  }

  /** The entries of the data rows: one per counted identifier in
      first-seen order, each matching the row-by-row reference (and the
      sighting reference the fold is proved against). */
  lemma AccumulateTallies(rows: seq<Row>, cols: Columns)
    ensures Ids(Accumulate(rows, cols)) == Dedup(RowIds(rows, cols))
    ensures forall k :: 0 <= k < |Accumulate(rows, cols)| ==> RowMatches(Accumulate(rows, cols)[k], rows, cols)
    ensures AllMatch(Accumulate(rows, cols), Sightings(rows, cols))
  {
    var entries := Accumulate(rows, cols);
    TallyTallies(Sightings(rows, cols));
    SightingsIds(rows, cols);
    forall k | 0 <= k < |entries|
      ensures RowMatches(entries[k], rows, cols)
    {
      AllMatchAt(entries, Sightings(rows, cols), k);
      SightingsNet(rows, cols, entries[k].id);
      SightingsNames(rows, cols, entries[k].id);
    }
  }

  /** Some line of `ps` is for `id`. */
  predicate Listed(ps: seq<Player>, id: string)
  {
    exists k :: 0 <= k < |ps| && ps[k].id == id
  }

  /** The names of a counted identifier are never all blank, so its line
      lists them rather than `Unknown`. */
  lemma NamedLine(rows: seq<Row>, cols: Columns, id: string)
    requires id in RowIds(rows, cols)
    ensures FormatNicknames(NamesFor(rows, cols, id)) == Join(NamesFor(rows, cols, id), NameSeparator)
  {
    var seen := NamesSeen(rows, cols, id);
    var names := NamesFor(rows, cols, id);
    assert |seen| > 0;
    assert seen[0] in names;
    assert forall k :: 0 <= k < |names| ==> names[k] in seen;
    FilterAll(names, Named);
  }

  /** A matching entry of a counted identifier makes a line with the
      identifier's total and its names joined in first-seen order. */
  lemma PlayerLine(e: Entry, rows: seq<Row>, cols: Columns)
    requires Matches(e, Sightings(rows, cols)) && e.id in RowIds(rows, cols)
    ensures ToPlayer(e).net == NetFor(rows, cols, e.id)
    ensures ToPlayer(e).nickname == Join(NamesFor(rows, cols, e.id), NameSeparator)
  {
    SightingsNet(rows, cols, e.id);
    SightingsNames(rows, cols, e.id);
    NamedLine(rows, cols, e.id);
  }

  /** Each ranked line comes from one of the entries. */
  lemma RankFrom(entries: seq<Entry>, k: nat) returns (m: nat)
    requires k < |Rank(entries)|
    ensures m < |entries| && Rank(entries)[k] == ToPlayer(entries[m])
  {
    assert Rank(entries)[k] in multiset(Rank(entries));
    m := PositionOf(Players(entries), Rank(entries)[k]);
  }

  /** Every line of the player list carries its identifier's total net and
      its distinct nicknames in first-seen order, comma separated. */
  lemma AggregateLines(rows: seq<Row>, cols: Columns)
    ensures forall k :: 0 <= k < |Aggregate(rows, cols)| ==>
              Aggregate(rows, cols)[k].id in RowIds(rows, cols)
              && Aggregate(rows, cols)[k].net == NetFor(rows, cols, Aggregate(rows, cols)[k].id)
              && Aggregate(rows, cols)[k].nickname == Join(NamesFor(rows, cols, Aggregate(rows, cols)[k].id), NameSeparator)
  {
    var entries := Accumulate(rows, cols);
    var ps := Aggregate(rows, cols);
    AccumulateTallies(rows, cols);
    forall k | 0 <= k < |ps|
      ensures ps[k].id in RowIds(rows, cols)
      ensures ps[k].net == NetFor(rows, cols, ps[k].id)
      ensures ps[k].nickname == Join(NamesFor(rows, cols, ps[k].id), NameSeparator)
    {
      var m := RankFrom(entries, k);
      assert Ids(entries)[m] == entries[m].id;
      AllMatchAt(entries, Sightings(rows, cols), m);
      PlayerLine(entries[m], rows, cols);
    }
  }

  lemma ListedCounted(rows: seq<Row>, cols: Columns, id: string)
    requires Listed(Aggregate(rows, cols), id)
    ensures id in RowIds(rows, cols)
  {
    var entries := Accumulate(rows, cols);
    var ps := Aggregate(rows, cols);
    AccumulateTallies(rows, cols);
    var k :| 0 <= k < |ps| && ps[k].id == id;
    var m := RankFrom(entries, k);
    assert Ids(entries)[m] == id;
  }

  lemma CountedListed(rows: seq<Row>, cols: Columns, id: string)
    requires id in RowIds(rows, cols)
    ensures Listed(Aggregate(rows, cols), id)
  {
    var entries := Accumulate(rows, cols);
    var source := Players(entries);
    var ps := Aggregate(rows, cols);
    AccumulateTallies(rows, cols);
    assert id in Ids(entries);
    var m :| 0 <= m < |entries| && Ids(entries)[m] == id;
    var k := PositionOf(ps, source[m]);
    assert ps[k].id == id;
  }

  /** Every counted identifier has a line, and only those do. */
  lemma AggregateCovers(rows: seq<Row>, cols: Columns)
    ensures forall id :: Listed(Aggregate(rows, cols), id) <==> id in RowIds(rows, cols)
  {
    forall id
      ensures Listed(Aggregate(rows, cols), id) <==> id in RowIds(rows, cols)
    {
      if Listed(Aggregate(rows, cols), id) {
        ListedCounted(rows, cols, id);
      }
      if id in RowIds(rows, cols) {
        CountedListed(rows, cols, id);
      }
    }
  }

  lemma PlayersDistinct(entries: seq<Entry>)
    requires Distinct(Ids(entries))
    ensures Distinct(Players(entries))
  {
    var ids := Ids(entries);
    var ps := Players(entries);
    forall a, b | 0 <= a < b < |ps|
      ensures ps[a] != ps[b]
    {
      assert ids[a] != ids[b];
    }
  }

  /** Entries with distinct identifiers rank into lines with distinct
      identifiers. */
  lemma RankUnique(entries: seq<Entry>)
    requires Distinct(Ids(entries))
    ensures forall a, b :: 0 <= a < b < |Rank(entries)| ==> Rank(entries)[a].id != Rank(entries)[b].id
  {
    var ids := Ids(entries);
    var ps := Rank(entries);
    PlayersDistinct(entries);
    DistinctPermutation(Players(entries), ps);
    forall a, b | 0 <= a < b < |ps|
      ensures ps[a].id != ps[b].id
    {
      var x := RankFrom(entries, a);
      var y := RankFrom(entries, b);
      assert ps[a] != ps[b];
      assert x != y;
      assert ids[x] != ids[y];
      assert ids[x] == ps[a].id && ids[y] == ps[b].id;
    }
  }

  /** No identifier has two lines. */
  lemma AggregateUnique(rows: seq<Row>, cols: Columns)
    ensures forall a, b :: 0 <= a < b < |Aggregate(rows, cols)| ==> Aggregate(rows, cols)[a].id != Aggregate(rows, cols)[b].id
  {
    TallyTallies(Sightings(rows, cols));
    RankUnique(Accumulate(rows, cols));
  }

  /** A second sighting of an identifier under a new name. */
  lemma RecordAgain(id: string, n1: string, n2: string, v1: real, v2: real)
    requires Named(n1) && Named(n2) && n1 != n2
    ensures Record([Entry(id, [n1], 0.0 + v1)], id, n2, v2) == [Entry(id, [n1, n2], 0.0 + v1 + v2)]
  {
    var first := [Entry(id, [n1], 0.0 + v1)];
    assert Ids(first) == [id];
    RecordSeen(first, id, n2, v2, 0);
    var e := Entry(id, [n1, n2], 0.0 + v1 + v2);
    assert AddName([n1], n2) == [n1, n2];
    assert first[0 := e] == [e];
  }

  lemma TallyOne(s: Sighting)
    requires Named(s.name)
    ensures Tally([s]) == [Entry(s.id, [s.name], 0.0 + s.net)]
  {
    assert [s][..0] == [];
    RecordNew([], s.id, s.name, s.net);
    assert AddName([], s.name) == [s.name];
  }

  /** Two sightings of one identifier under different names make one entry
      holding both names, in order, and the sum of the nets. */
  lemma TallyPair(id: string, n1: string, n2: string, v1: real, v2: real)
    requires Named(n1) && Named(n2) && n1 != n2
    ensures Tally([Sighting(id, n1, v1), Sighting(id, n2, v2)]) == [Entry(id, [n1, n2], 0.0 + v1 + v2)]
  {
    var s1 := Sighting(id, n1, v1);
    assert [s1, Sighting(id, n2, v2)][..1] == [s1];
    TallyOne(s1);
    RecordAgain(id, n1, n2, v1, v2);
  }

  lemma FormatTwo(n1: string, n2: string)
    requires Named(n1) && Named(n2)
    ensures FormatNicknames([n1, n2]) == n1 + NameSeparator + n2
  {
    FilterAll([n1, n2], Named);
    assert [n1, n2][..1] == [n1];
    assert Join([n1, n2], NameSeparator) == Join([n1], NameSeparator) + NameSeparator + n2;
  }

  /** A single entry ranks into its own line. */
  lemma RankOne(e: Entry)
    ensures Rank([e]) == [ToPlayer(e)]
  {
    assert Players([e]) == [ToPlayer(e)];
    SortDescOfSorted([ToPlayer(e)], ByNet);
  }

  /** Two sightings of `id` under different names rank into one line. */
  lemma RankPair(id: string, n1: string, n2: string, v1: real, v2: real)
    requires Named(n1) && Named(n2) && n1 != n2
    ensures Rank(Tally([Sighting(id, n1, v1), Sighting(id, n2, v2)])) == [Player(id, n1 + NameSeparator + n2, v1 + v2)]
  {
    var e := Entry(id, [n1, n2], 0.0 + v1 + v2);
    calc {
      Rank(Tally([Sighting(id, n1, v1), Sighting(id, n2, v2)]));
      { TallyPair(id, n1, n2, v1, v2); }
      Rank([e]);
      { RankOne(e); }
      [Player(id, FormatNicknames([n1, n2]), 0.0 + v1 + v2)];
      { FormatTwo(n1, n2); }
      [Player(id, n1 + NameSeparator + n2, v1 + v2)];
    }
  }

  lemma SightingsPair(r1: Row, r2: Row, cols: Columns, s1: Sighting, s2: Sighting)
    requires Sight(r1, cols) == Some(s1) && Sight(r2, cols) == Some(s2)
    ensures Sightings([r1, r2], cols) == [s1, s2]
  {
    assert [r1, r2][..1] == [r1];
    assert [r1][..0] == [];
    assert Sightings([r1], cols) == [] + [s1];
  }

  /** Two rows under the same identifier with different nicknames make one
      line whose name lists both, in row order, and whose net is the sum. */
  lemma TwoSightings(r1: Row, r2: Row, cols: Columns, id: string, n1: string, n2: string, v1: real, v2: real)
    requires Sight(r1, cols) == Some(Sighting(id, n1, v1)) && Sight(r2, cols) == Some(Sighting(id, n2, v2))
    requires n1 != n2
    ensures Aggregate([r1, r2], cols) == [Player(id, n1 + NameSeparator + n2, v1 + v2)]
  {
    SightingsPair(r1, r2, cols, Sighting(id, n1, v1), Sighting(id, n2, v2));
    RankPair(id, n1, n2, v1, v2);
  }

  /** The rows of `rows1` and `rows2` are the same up to order: the same
      identifiers are listed, each with the same net. */
  lemma AggregateReorder(rows1: seq<Row>, rows2: seq<Row>, cols: Columns)
    requires multiset(rows1) == multiset(rows2)
    ensures forall id :: Listed(Aggregate(rows1, cols), id) <==> Listed(Aggregate(rows2, cols), id)
    ensures forall a, b :: 0 <= a < |Aggregate(rows1, cols)| && 0 <= b < |Aggregate(rows2, cols)|
                           && Aggregate(rows1, cols)[a].id == Aggregate(rows2, cols)[b].id
                           ==> Aggregate(rows1, cols)[a].net == Aggregate(rows2, cols)[b].net
  {
    var ps1, ps2 := Aggregate(rows1, cols), Aggregate(rows2, cols);
    AggregateCovers(rows1, cols);
    AggregateCovers(rows2, cols);
    AggregateLines(rows1, cols);
    AggregateLines(rows2, cols);
    forall id
      ensures id in RowIds(rows1, cols) <==> id in RowIds(rows2, cols)
    {
      if id in RowIds(rows1, cols) {
        var k :| CountedAt(rows1, cols, id, k);
        assert rows1[k] in multiset(rows2);
        var m :| 0 <= m < |rows2| && rows2[m] == rows1[k];
        assert CountedAt(rows2, cols, id, m);
      }
      if id in RowIds(rows2, cols) {
        var k :| CountedAt(rows2, cols, id, k);
        assert rows2[k] in multiset(rows1);
        var m :| 0 <= m < |rows1| && rows1[m] == rows2[k];
        assert CountedAt(rows1, cols, id, m);
      }
    }
    forall a, b | 0 <= a < |ps1| && 0 <= b < |ps2| && ps1[a].id == ps2[b].id
      ensures ps1[a].net == ps2[b].net
    {
      SumPermutation(rows1, rows2, Stake(cols, ps1[a].id));
    }
  }

  /** One sighting adds its net to the total. */
  lemma RecordTotalSeen(entries: seq<Entry>, id: string, name: string, net: real, k: nat)
    requires IndexOf(Ids(entries), id) == Some(k)
    ensures Sum(Players(Record(entries, id, name, net)), ByNet) == Sum(Players(entries), ByNet) + net
  {
    RecordSeen(entries, id, name, net, k);
    var e := Entry(id, AddName(entries[k].names, name), entries[k].net + net);
    assert Players(entries[k := e]) == Players(entries)[k := ToPlayer(e)];
    SumUpdate(Players(entries), k, ToPlayer(e), ByNet);
  }

  lemma RecordTotalNew(entries: seq<Entry>, id: string, name: string, net: real)
    requires IndexOf(Ids(entries), id).None?
    ensures Sum(Players(Record(entries, id, name, net)), ByNet) == Sum(Players(entries), ByNet) + net
  {
    RecordNew(entries, id, name, net);
    var e := Entry(id, AddName([], name), 0.0 + net);
    var ps := Players(entries) + [ToPlayer(e)];
    assert Players(entries + [e]) == ps;
    assert ps[..|ps| - 1] == Players(entries);
  }

  /** One sighting adds its net to the total of the entries. */
  lemma RecordTotal(entries: seq<Entry>, id: string, name: string, net: real)
    ensures Sum(Players(Record(entries, id, name, net)), ByNet) == Sum(Players(entries), ByNet) + net
  {
    match IndexOf(Ids(entries), id)
    case Some(k) => RecordTotalSeen(entries, id, name, net, k);
    case None => RecordTotalNew(entries, id, name, net);
  }

  /** The entries' nets add up to the sightings' nets. */
  lemma {:induction false} TallyTotal(ss: seq<Sighting>)
    ensures Sum(Players(Tally(ss)), ByNet) == Sum(ss, SightingNet)
    decreases |ss|
  {
    if |ss| > 0 {
      var s := ss[|ss| - 1];
      TallyTotal(ss[..|ss| - 1]);
      RecordTotal(Tally(ss[..|ss| - 1]), s.id, s.name, s.net);
    }
  }

  /** The table's total is the sum of the nets of the counted rows. */
  lemma AggregateTotal(rows: seq<Row>, cols: Columns)
    ensures Sum(Aggregate(rows, cols), ByNet) == Sum(rows, Counted(cols))
  {
    TallyTotal(Sightings(rows, cols));
    SightingsTotal(rows, cols);
    SumPermutation(Aggregate(rows, cols), Players(Accumulate(rows, cols)), ByNet);
  }
}

=== FILE: numbers.dfy ===
/** Tolerant text-to-number coercion (`parseNumber`): thousands separators
    are removed, surrounding white space is trimmed, and text that is not a
    decimal literal counts as 0, so coercion never fails. `Number`'s grammar
    is restricted here to optionally signed decimal literals
    `[+-]? digits [. digits]` and `[+-]? . digits`; values are exact reals. */
module Numbers {
  import opened Common
  import opened Text

  predicate IsDigit(c: char)
  {
    '0' <= c <= '9'
  }

  predicate AllDigits(s: string)
  {
    forall k :: 0 <= k < |s| ==> IsDigit(s[k])
  }

  function DigitValue(c: char): nat
    requires IsDigit(c)
  {
    (c as int) - ('0' as int)
  }

  function DigitChar(d: nat): (c: char)
    requires d < 10
    ensures IsDigit(c) && DigitValue(c) == d
  {
    (('0' as int) + d) as char
  }

  /** The value of a string of decimal digits, most significant first. */
  function DigitsValue(s: string): nat
    requires AllDigits(s)
  {
    if |s| == 0 then 0 else 10 * DigitsValue(s[..|s| - 1]) + DigitValue(s[|s| - 1])
  }

  /** The value of the digits after a decimal point: `0.d1 d2 ...`. */
  function FractionValue(s: string): (r: real)
    requires AllDigits(s)
    ensures 0.0 <= r < 1.0
  {
    if |s| == 0 then 0.0 else (DigitValue(s[0]) as real + FractionValue(s[1..])) / 10.0
  }

  /** `replace(/,/g, "")`. */
  function StripCommas(s: string): (r: string)
    ensures ',' !in r
  {
    if |s| == 0 then ""
    else (if s[0] == ',' then "" else [s[0]]) + StripCommas(s[1..])
  }

  /** Removing commas keeps every other character, and only those. */
  lemma {:induction false} StripCommasChars(s: string)
    ensures forall c :: c != ',' ==> (c in StripCommas(s) <==> c in s)
    decreases |s|
  {
    if |s| > 0 {
      StripCommasChars(s[1..]);
      assert s == [s[0]] + s[1..];
    }
  }

  lemma StripCommasCons(c: char, s: string)
    ensures StripCommas([c] + s) == (if c == ',' then "" else [c]) + StripCommas(s)
  {
    assert ([c] + s)[1..] == s;
  }

  lemma {:induction false} StripCommasAppend(a: string, b: string)
    ensures StripCommas(a + b) == StripCommas(a) + StripCommas(b)
    decreases |a|
  {
    if |a| == 0 {
      assert a + b == b;
    } else {
      var c, t := a[0], a[1..];
      StripCommasAppend(t, b);
      assert a + b == [c] + (t + b);
      StripCommasCons(c, t + b);
      StripCommasCons(c, t);
      assert a == [c] + t;
      ConcatAssociative(if c == ',' then "" else [c], StripCommas(t), StripCommas(b));
    }
  }

  lemma {:induction false} StripCommasNone(s: string)
    requires ',' !in s
    ensures StripCommas(s) == s
    decreases |s|
  {
    if |s| > 0 {
      StripCommasNone(s[1..]);
      assert s == [s[0]] + s[1..];
    }
  }

  /** An unsigned decimal literal: digits with at most one point and at
      least one digit; a literal has a non-negative value. */
  function ParseUnsigned(s: string): (r: Option<real>)
    ensures r.Some? ==> r.value >= 0.0
  {
    if '.' in s then
      var p := FirstIndex(s, '.');
      var whole := s[..p];
      var frac := s[p + 1..];
      if |whole| + |frac| > 0 && AllDigits(whole) && AllDigits(frac) then
        Some(DigitsValue(whole) as real + FractionValue(frac))
      else None
    else if |s| > 0 && AllDigits(s) then
      Some(DigitsValue(s) as real)
    else None
  }

  /** A decimal literal with an optional leading sign. */
  function ParseDecimal(s: string): Option<real>
  {
    if |s| > 0 && (s[0] == '-' || s[0] == '+') then
      match ParseUnsigned(s[1..])
      case None => None
      case Some(v) => Some(if s[0] == '-' then -v else v)
    else ParseUnsigned(s)
  }

  predicate HasDigit(s: string)
  {
    exists k :: 0 <= k < |s| && IsDigit(s[k])
  }

  /** Every unsigned literal holds a digit. */
  lemma ParseUnsignedDigit(s: string)
    ensures ParseUnsigned(s).Some? ==> HasDigit(s)
  {
    if ParseUnsigned(s).Some? {
      if '.' in s {
        var p := FirstIndex(s, '.');
        if p > 0 {
          assert IsDigit(s[..p][0]);
        } else {
          assert IsDigit(s[p + 1..][0]);
        }
      } else {
        assert IsDigit(s[0]);
      }
    }
  }

  /** Every decimal literal holds a digit. */
  lemma ParseDecimalDigit(s: string)
    ensures ParseDecimal(s).Some? ==> HasDigit(s)
  {
    if |s| > 0 && (s[0] == '-' || s[0] == '+') {
      ParseUnsignedDigit(s[1..]);
      if HasDigit(s[1..]) {
        var k :| 0 <= k < |s[1..]| && IsDigit(s[1..][k]);
        assert IsDigit(s[k + 1]);
      }
    } else {
      ParseUnsignedDigit(s);
    }
  }

  /** `parseNumber`: a missing cell and text that is not a decimal literal
      after removing commas and trimming both give 0; text without any digit
      always gives 0. */
  function ParseNumber(value: Option<string>): (r: real)
    ensures value.None? ==> r == 0.0
  {
    match value
    case None => 0.0
    case Some(s) =>
      var cleaned := Trim(StripCommas(s));
      match ParseDecimal(cleaned)
      case Some(v) => v
      case None => 0.0
  }

  /** A trailing comma is removed. */
  lemma StripCommasTrailing(a: string)
    ensures StripCommas(a + ",") == StripCommas(a)
  {
    StripCommasAppend(a, ",");
    StripCommasCons(',', "");
    assert [','] + "" == ",";
    assert StripCommas(a) + "" == StripCommas(a);
  }

  /** Removing commas and trimming adds no digit. */
  lemma CleanedDigits(s: string)
    requires forall c :: c in s ==> !IsDigit(c)
    ensures !HasDigit(Trim(StripCommas(s)))
  {
    var cleaned := Trim(StripCommas(s));
    TrimChars(StripCommas(s));
    StripCommasChars(s);
    forall k | 0 <= k < |cleaned|
      ensures !IsDigit(cleaned[k])
    {
      assert cleaned[k] in cleaned;
    }
  }

  /** Text without a digit is not a number, and counts as 0. */
  lemma ParseNumberNoDigits(s: string)
    requires forall c :: c in s ==> !IsDigit(c)
    ensures ParseNumber(Some(s)) == 0.0
  {
    CleanedDigits(s);
    ParseDecimalDigit(Trim(StripCommas(s)));
  }

  /** Removing commas keeps every other character as often as before. */
  lemma {:induction false} StripCommasCount(s: string, c: char)
    requires c != ','
    ensures multiset(StripCommas(s))[c] == multiset(s)[c]
    decreases |s|
  {
    if |s| > 0 {
      StripCommasCount(s[1..], c);
      assert s == [s[0]] + s[1..];
      StripCommasCons(s[0], s[1..]);
      assert multiset(s) == multiset([s[0]]) + multiset(s[1..]);
    }
  }

  /** Cleaning a cell keeps every character that is neither a comma nor
      white space, as often as the cell holds it. */
  lemma CleanedCount(s: string, c: char)
    requires c != ',' && !IsSpace(c)
    ensures multiset(Trim(StripCommas(s)))[c] == multiset(s)[c]
  {
    StripCommasCount(s, c);
    TrimCount(StripCommas(s), c);
  }

  /** A decimal literal is digits with at most one point, after at most
      one leading sign. */
  lemma ParseDecimalShape(s: string)
    requires ParseDecimal(s).Some?
    ensures forall k :: 0 <= k < |s| ==> IsDigit(s[k]) || s[k] == '.' || (k == 0 && (s[k] == '+' || s[k] == '-'))
    ensures multiset(s)['.'] <= 1
  {
    var signed := |s| > 0 && (s[0] == '-' || s[0] == '+');
    var u := if signed then s[1..] else s;
    var d := if signed then 1 else 0;
    assert s[d..] == u;
    UnsignedShape(u);
    forall k | d <= k < |s|
      ensures IsDigit(s[k]) || s[k] == '.'
    {
      assert s[k] == u[k - d];
    }
    if signed {
      assert s == [s[0]] + u;
    }
  }

  lemma UnsignedShape(u: string)
    requires ParseUnsigned(u).Some?
    ensures forall k :: 0 <= k < |u| ==> IsDigit(u[k]) || u[k] == '.'
    ensures multiset(u)['.'] <= 1
  {
    if '.' in u {
      var p := FirstIndex(u, '.');
      var whole, frac := u[..p], u[p + 1..];
      forall k | 0 <= k < |u|
        ensures IsDigit(u[k]) || u[k] == '.'
      {
        if k < p {
          assert u[k] == whole[k];
        } else if k > p {
          assert u[k] == frac[k - p - 1];
        }
      }
      assert u == whole + [u[p]] + frac;
      assert '.' !in whole && '.' !in frac;
    }
  }

  /** An ASCII character that no JavaScript numeric string holds, whatever
      its position: not a letter (exponents, radix prefixes, hexadecimal
      digits and `Infinity` use those), a digit, a point, a sign, a comma
      (removed first) or white space. `$`, `%`, `/` and `(` are such. */
  predicate Junk(c: char)
  {
    c < '\U{0080}' && !IsDigit(c) && !('a' <= c <= 'z') && !('A' <= c <= 'Z')
    && c != '.' && c != '+' && c != '-' && c != ',' && !IsSpace(c)
  }

  /** Text holding such a character is not a number, and counts as 0:
      `$1,200` and `12%` read as 0. */
  lemma ParseNumberJunk(s: string, k: nat)
    requires k < |s| && Junk(s[k])
    ensures ParseNumber(Some(s)) == 0.0
  {
    var t := Trim(StripCommas(s));
    CleanedCount(s, s[k]);
    assert s[k] in multiset(s);
    if ParseDecimal(t).Some? {
      ParseDecimalShape(t);
      assert false;
    }
  }

  /** Text with two points is not a number, and counts as 0: `1.2.3`. */
  lemma ParseNumberTwoPoints(s: string)
    requires multiset(s)['.'] >= 2
    ensures ParseNumber(Some(s)) == 0.0
  {
    CleanedCount(s, '.');
    if ParseDecimal(Trim(StripCommas(s))).Some? {
      ParseDecimalShape(Trim(StripCommas(s)));
    }
  }

  /** Removing commas from `s` leaves the character at `k` after some
      character found before `k` that is not a comma. */
  lemma StripCommasLater(s: string, j: nat, k: nat)
    requires j < k < |s| && s[j] != ',' && s[k] != ','
    ensures exists i, m :: 0 <= i < m < |StripCommas(s)| && StripCommas(s)[i] == s[j] && StripCommas(s)[m] == s[k]
  {
    var u := StripCommas(s);
    var front := StripCommas(s[..k]);
    assert s == s[..k] + s[k..];
    StripCommasAppend(s[..k], s[k..]);
    assert s[k..] == [s[k]] + s[k + 1..];
    StripCommasCons(s[k], s[k + 1..]);
    assert u[|front|] == s[k];
    assert s[..k][j] == s[j];
    StripCommasCount(s[..k], s[j]);
    assert s[j] in multiset(front);
    var i :| 0 <= i < |front| && front[i] == s[j];
    assert u[i] == s[j];
  }

  /** In text without letters (so without an exponent, a radix prefix or
      `Infinity`), a sign after an ASCII character other than white space or
      a comma makes the text a non-number, which counts as 0: `5-` and `1+2`. */
  lemma ParseNumberLateSign(s: string, j: nat, k: nat)
    requires j < k < |s| && (s[k] == '+' || s[k] == '-')
    requires s[j] != ',' && !IsSpace(s[j]) && s[j] < '\U{0080}'
    requires forall c :: c in s ==> !('a' <= c <= 'z') && !('A' <= c <= 'Z')
    ensures ParseNumber(Some(s)) == 0.0
  {
    var u := StripCommas(s);
    StripCommasLater(s, j, k);
    var i, m :| 0 <= i < m < |u| && u[i] == s[j] && u[m] == s[k];
    TrimLater(u, i, m);
    var t := Trim(u);
    if ParseDecimal(t).Some? {
      ParseDecimalShape(t);
    }
  }

  lemma StripCommasInsert(s: string, k: nat)
    requires k <= |s|
    ensures StripCommas(s[..k] + "," + s[k..]) == StripCommas(s)
  {
    var a, b := s[..k], s[k..];
    calc {
      StripCommas(a + "," + b);
      { StripCommasAppend(a + ",", b); }
      StripCommas(a + ",") + StripCommas(b);
      { StripCommasTrailing(a); }
      StripCommas(a) + StripCommas(b);
      { StripCommasAppend(a, b); }
      StripCommas(a + b);
      { assert a + b == s; }
      StripCommas(s);
    }
  }

  /** Inserting a comma anywhere does not change the number. */
  lemma ParseNumberIgnoresComma(s: string, k: nat)
    requires k <= |s|
    ensures ParseNumber(Some(s[..k] + "," + s[k..])) == ParseNumber(Some(s))
  {
    StripCommasInsert(s, k);
  }

  /** The decimal digits of `n`, most significant first, no leading zeros. */
  function ShowNat(n: nat): (s: string)
    ensures |s| > 0 && AllDigits(s) && DigitsValue(s) == n
  {
    if n < 10 then [DigitChar(n)]
    else
      var s := ShowNat(n / 10) + [DigitChar(n % 10)];
      assert s[..|s| - 1] == ShowNat(n / 10);
      s
  }

  /** The usual decimal spelling of an integer: a minus sign for negatives. */
  function Show(n: int): string
  {
    if n < 0 then "-" + ShowNat(-n) else ShowNat(n)
  }

  lemma ShowShape(n: int)
    ensures |Show(n)| > 0
    ensures forall k :: 0 <= k < |Show(n)| ==> IsDigit(Show(n)[k]) || (k == 0 && Show(n)[k] == '-')
    ensures IsDigit(Show(n)[|Show(n)| - 1])
  {
  }

  lemma TrimShow(n: int)
    ensures Trim(StripCommas(Show(n))) == Show(n)
  {
    var s := Show(n);
    ShowShape(n);
    assert ',' !in s;
    StripCommasNone(s);
    assert !IsSpace(s[0]) && !IsSpace(s[|s| - 1]);
    assert TrimStart(s) == s;
    assert TrimEnd(s) == s;
  }

  lemma ParseShowNat(m: nat)
    ensures ParseUnsigned(ShowNat(m)) == Some(m as real)
  {
    var s := ShowNat(m);
    assert '.' !in s;
  }

  lemma ParseDecimalNegative(n: int)
    requires n < 0
    ensures ParseDecimal(Show(n)) == Some(n as real)
  {
    var s := Show(n);
    assert s[0] == '-';
    assert s[1..] == ShowNat(-n);
    ParseShowNat(-n);
  }

  lemma ParseDecimalNatural(n: nat)
    ensures ParseDecimal(Show(n)) == Some(n as real)
  {
    var s := ShowNat(n);
    assert IsDigit(s[0]);
    ParseShowNat(n);
  }

  /** Whole numbers written in decimal read back as themselves. */
  lemma ParseNumberShow(n: int)
    ensures ParseNumber(Some(Show(n))) == n as real
  {
    TrimShow(n);
    if n < 0 {
      ParseDecimalNegative(n);
    } else {
      ParseDecimalNatural(n);
    }
  }

  /** Thousands separators anywhere in a whole number are ignored. */
  lemma ParseNumberGrouped(n: int, text: string)
    requires StripCommas(text) == Show(n)
    ensures ParseNumber(Some(text)) == n as real
  {
    ParseNumberShow(n);
    StripCommasNone(Show(n));
  }

  /** White space around the text is ignored. */
  lemma ParseNumberPadded(a: string, t: string, b: string)
    requires AllSpace(a) && AllSpace(b)
    ensures ParseNumber(Some(a + t + b)) == ParseNumber(Some(t))
  {
    assert ',' !in a && ',' !in b by {
      assert !IsSpace(',');
    }
    StripCommasAppend(a + t, b);
    StripCommasAppend(a, t);
    StripCommasNone(a);
    StripCommasNone(b);
    TrimPadded(a, StripCommas(t), b);
  }

  function Pow10(d: nat): (r: nat)
    ensures r >= 1
  {
    if d == 0 then 1 else 10 * Pow10(d - 1)
  }

  /** The `d` digits of `f`, zero-padded on the left: the digits after the
      point of a fixed-point number. */
  function ShowDigits(f: nat, d: nat): (s: string)
    requires f < Pow10(d)
    ensures |s| == d && AllDigits(s)
  {
    if d == 0 then ""
    else ShowDigits(f / 10, d - 1) + [DigitChar(f % 10)]
  }

  /** A digit appended after the point adds its value at the next place. */
  lemma {:induction false} FractionAppend(s: string, c: char)
    requires AllDigits(s) && IsDigit(c)
    ensures FractionValue(s + [c]) == FractionValue(s) + DigitValue(c) as real / Pow10(|s| + 1) as real
    decreases |s|
  {
    var t := s + [c];
    var y := DigitValue(c) as real;
    if |s| == 0 {
      assert t == [c] && t[1..] == "";
    } else {
      var x, a := DigitValue(s[0]) as real, FractionValue(s[1..]);
      var q := Pow10(|s|) as real;
      assert t[0] == s[0] && t[1..] == s[1..] + [c];
      FractionAppend(s[1..], c);
      assert FractionValue(t[1..]) == a + y / q;
      assert FractionValue(t) == (x + (a + y / q)) / 10.0;
      assert FractionValue(s) == (x + a) / 10.0;
      assert Pow10(|s| + 1) as real == 10.0 * q;
      DivTen(y, q);
    }
  }

  lemma DivTen(y: real, q: real)
    requires q > 0.0
    ensures (y / q) / 10.0 == y / (10.0 * q)
  {
    var z := y / q;
    assert y == z * q;
    assert y == (z / 10.0) * (10.0 * q);
  }

  /** The digits of `ShowDigits(f, d)` after a point are worth `f / 10^d`. */
  lemma {:induction false} ShowDigitsValue(f: nat, d: nat)
    requires f < Pow10(d)
    ensures FractionValue(ShowDigits(f, d)) == f as real / Pow10(d) as real
    decreases d
  {
    if d > 0 {
      var s := ShowDigits(f / 10, d - 1);
      var c := DigitChar(f % 10);
      ShowDigitsValue(f / 10, d - 1);
      FractionAppend(s, c);
      var q := Pow10(d - 1) as real;
      assert Pow10(d) as real == 10.0 * q;
      assert f as real == 10.0 * (f / 10) as real + (f % 10) as real;
      ShiftPlace((f / 10) as real, (f % 10) as real, q);
    }
  }

  /** `a` tenths of a place and `b` of the next place make `10a + b` of it. */
  lemma ShiftPlace(a: real, b: real, q: real)
    requires q > 0.0
    ensures a / q + b / (10.0 * q) == (10.0 * a + b) / (10.0 * q)
  {
    var x, y := a / q, b / (10.0 * q);
    assert a == x * q;
    assert b == y * (10.0 * q);
    assert 10.0 * a + b == (x + y) * (10.0 * q);
  }

  /** The digits of a fixed-point number: the whole part, a point and `d`
      digits after it. */
  function FixedDigits(whole: nat, frac: nat, d: nat): string
    requires frac < Pow10(d)
  {
    ShowNat(whole) + "." + ShowDigits(frac, d)
  }

  /** A fixed-point number spelled with `d` digits after the point, with
      a minus sign when `negative`, such as `12.50` or `-0.75`. */
  function ShowFixed(negative: bool, whole: nat, frac: nat, d: nat): string
    requires frac < Pow10(d)
  {
    if negative then "-" + FixedDigits(whole, frac, d) else FixedDigits(whole, frac, d)
  }

  lemma ParseUnsignedFixed(whole: nat, frac: nat, d: nat)
    requires frac < Pow10(d)
    ensures ParseUnsigned(FixedDigits(whole, frac, d)) == Some(whole as real + frac as real / Pow10(d) as real)
  {
    var w, f := ShowNat(whole), ShowDigits(frac, d);
    var s := FixedDigits(whole, frac, d);
    assert s[|w|] == '.';
    assert '.' !in w by {
      assert forall k :: 0 <= k < |w| ==> IsDigit(w[k]);
    }
    assert FirstIndex(s, '.') == |w| by {
      assert forall m :: 0 <= m < |w| ==> s[m] == w[m];
    }
    assert s[..|w|] == w && s[|w| + 1..] == f;
    ShowDigitsValue(frac, d);
  }

  /** A fixed-point spelling has no comma and nothing to trim. */
  lemma TrimFixed(negative: bool, whole: nat, frac: nat, d: nat)
    requires frac < Pow10(d)
    ensures Trim(StripCommas(ShowFixed(negative, whole, frac, d))) == ShowFixed(negative, whole, frac, d)
  {
    var s := ShowFixed(negative, whole, frac, d);
    FixedNoComma(negative, whole, frac, d);
    StripCommasNone(s);
    FixedEnds(negative, whole, frac, d);
    TrimKeeps(s);
  }

  lemma FixedNoComma(negative: bool, whole: nat, frac: nat, d: nat)
    requires frac < Pow10(d)
    ensures ',' !in ShowFixed(negative, whole, frac, d)
  {
    var w, f := ShowNat(whole), ShowDigits(frac, d);
    assert ',' !in w && ',' !in f;
    assert ',' !in FixedDigits(whole, frac, d);
  }

  lemma FixedEnds(negative: bool, whole: nat, frac: nat, d: nat)
    requires frac < Pow10(d)
    ensures var s := ShowFixed(negative, whole, frac, d);
      |s| > 0 && !IsSpace(s[0]) && !IsSpace(s[|s| - 1])
  {
    var w, f := ShowNat(whole), ShowDigits(frac, d);
    var u := FixedDigits(whole, frac, d);
    var s := ShowFixed(negative, whole, frac, d);
    assert u[0] == w[0] && IsDigit(w[0]);
    if |f| > 0 {
      assert u[|u| - 1] == f[|f| - 1] && IsDigit(f[|f| - 1]);
    } else {
      assert u[|u| - 1] == '.';
    }
    if negative {
      assert s == "-" + u && s[0] == '-' && s[|s| - 1] == u[|u| - 1];
    }
  }

  lemma ParseDecimalFixed(negative: bool, whole: nat, frac: nat, d: nat)
    requires frac < Pow10(d)
    ensures var v := whole as real + frac as real / Pow10(d) as real;
      ParseDecimal(ShowFixed(negative, whole, frac, d)) == Some(if negative then -v else v)
  {
    var u := FixedDigits(whole, frac, d);
    ParseUnsignedFixed(whole, frac, d);
    if negative {
      assert ("-" + u)[1..] == u;
    } else {
      assert IsDigit(ShowNat(whole)[0]) && u[0] == ShowNat(whole)[0];
    }
  }

  /** A fixed-point number reads back as its value: `12.50` as 12.5 and
      `-0.75` as -0.75. */
  lemma ParseNumberFixed(negative: bool, whole: nat, frac: nat, d: nat)
    requires frac < Pow10(d)
    ensures var v := whole as real + frac as real / Pow10(d) as real;
      ParseNumber(Some(ShowFixed(negative, whole, frac, d))) == if negative then -v else v
  {
    TrimFixed(negative, whole, frac, d);
    ParseDecimalFixed(negative, whole, frac, d);
  }
}

=== FILE: settlement.dfy ===
/** The settlement suggestion (`computeTransfers`): creditors sorted by
    largest credit and debtors by largest debt are walked with two cursors;
    each step moves the smaller of the two outstanding amounts from the
    current debtor to the current creditor, and a cursor moves on once its
    party's outstanding amount is within `Tolerance` of zero. */
module Settlement {
  import opened Common
  import opened Sorting
  import opened Ledger

  const Tolerance: real := 0.0001

  /** A suggested payment between two lines of the player list. */
  datatype Transfer = Transfer(from: Player, to: Player, amount: real)

  predicate IsCreditor(p: Player)
  {
    p.net > 0.0
  }

  predicate IsDebtor(p: Player)
  {
    p.net < 0.0
  }

  /** The sort key that puts the largest debt first. */
  function ByDebt(p: Player): real
  {
    -p.net
  }

  /** All the players with a positive net, largest first. */
  function Creditors(players: seq<Player>): (cs: seq<Player>)
    ensures forall k :: 0 <= k < |cs| ==> cs[k].net > 0.0 && cs[k] in players
    ensures multiset(cs) == multiset(Filter(players, IsCreditor))
    ensures NonIncreasing(cs, ByNet)
  {
    var cs := SortDesc(Filter(players, IsCreditor), ByNet);
    assert forall k :: 0 <= k < |cs| ==> cs[k] in multiset(Filter(players, IsCreditor));
    cs
  }

  /** All the players with a negative net, most negative first. */
  function Debtors(players: seq<Player>): (ds: seq<Player>)
    ensures forall k :: 0 <= k < |ds| ==> ds[k].net < 0.0 && ds[k] in players
    ensures multiset(ds) == multiset(Filter(players, IsDebtor))
    ensures NonIncreasing(ds, ByDebt)
  {
    var ds := SortDesc(Filter(players, IsDebtor), ByDebt);
    assert forall k :: 0 <= k < |ds| ==> ds[k] in multiset(Filter(players, IsDebtor));
    ds
  }

  function Nets(ps: seq<Player>): (r: seq<real>)
    ensures |r| == |ps|
  {
    seq(|ps|, k requires 0 <= k < |ps| => ps[k].net)
  }

  function Abs(x: real): real
  {
    if x < 0.0 then -x else x
  }

  function Min(a: real, b: real): real
  {
    if a <= b then a else b
  }

  /** The working state of the walk: the debtors' outstanding nets (never
      positive), the creditors' outstanding nets (never negative), and the
      two cursors. */
  datatype Cursors = Cursors(debts: seq<real>, credits: seq<real>, i: nat, j: nat)

  predicate Valid(c: Cursors)
  {
    c.i <= |c.debts| && c.j <= |c.credits|
    && (forall k :: 0 <= k < |c.debts| ==> c.debts[k] <= 0.0)
    && (forall k :: 0 <= k < |c.credits| ==> c.credits[k] >= 0.0)
  }

  /** The walk has not finished: both cursors still point at a party. */
  predicate Open(c: Cursors)
  {
    c.i < |c.debts| && c.j < |c.credits|
  }

  /** A payment from the debtor at position `debtor` to the creditor at
      position `creditor`. */
  datatype Payment = Payment(debtor: nat, creditor: nat, amount: real)

  /** One pass of the loop body: the payment it makes, if any, and the
      state after it. */
  datatype Turn = Turn(paid: seq<Payment>, next: Cursors)

  /** One pass of the loop: the pass always moves at least one cursor, by at
      most one place each, and keeps the signs of the outstanding nets. */
  function Advance(c: Cursors): (t: Turn)
    requires Valid(c) && Open(c)
    ensures Valid(t.next)
    ensures |t.next.debts| == |c.debts| && |t.next.credits| == |c.credits|
    ensures c.i <= t.next.i <= c.i + 1 && c.j <= t.next.j <= c.j + 1
    ensures t.next.i + t.next.j > c.i + c.j
    ensures |t.paid| <= 1
    ensures forall p :: p in t.paid ==> p.debtor == c.i && p.creditor == c.j && p.amount > 0.0
  {
    var debt, credit := c.debts[c.i], c.credits[c.j];
    var amount := Min(credit, -debt);
    var debts := if amount > 0.0 then c.debts[c.i := debt + amount] else c.debts;
    var credits := if amount > 0.0 then c.credits[c.j := credit - amount] else c.credits;
    var i := if Abs(debts[c.i]) < Tolerance then c.i + 1 else c.i;
    var j := if Abs(credits[c.j]) < Tolerance then c.j + 1 else c.j;
    Turn(if amount > 0.0 then [Payment(c.i, c.j, amount)] else [], Cursors(debts, credits, i, j))
  }

  /** The payments of a walk and its final state. */
  datatype Walked = Walked(payments: seq<Payment>, end: Cursors)

  /** The loop from state `c` until one side is exhausted. */
  function Walk(c: Cursors): (w: Walked)
    requires Valid(c)
    ensures Valid(w.end) && !Open(w.end)
    ensures |w.end.debts| == |c.debts| && |w.end.credits| == |c.credits|
    ensures c.i <= w.end.i && c.j <= w.end.j
    ensures forall p :: p in w.payments ==>
              c.i <= p.debtor < |c.debts| && c.j <= p.creditor < |c.credits| && p.amount > 0.0
    decreases |c.debts| - c.i + |c.credits| - c.j
  {
    if !Open(c) then Walked([], c)
    else
      var t := Advance(c);
      var rest := Walk(t.next);
      Walked(t.paid + rest.payments, rest.end)
  }

  function Start(debtors: seq<Player>, creditors: seq<Player>): (c: Cursors)
    requires forall k :: 0 <= k < |debtors| ==> debtors[k].net < 0.0
    requires forall k :: 0 <= k < |creditors| ==> creditors[k].net > 0.0
    ensures Valid(c)
  {
    Cursors(Nets(debtors), Nets(creditors), 0, 0)
  }

  /** Payments by position turned into transfers between players. */
  function ToTransfers(ps: seq<Payment>, debtors: seq<Player>, creditors: seq<Player>): (ts: seq<Transfer>)
    requires forall p :: p in ps ==> p.debtor < |debtors| && p.creditor < |creditors|
    ensures |ts| == |ps|
  {
    seq(|ps|, k requires 0 <= k < |ps| => Transfer(debtors[ps[k].debtor], creditors[ps[k].creditor], ps[k].amount))
  }

  /** The payments of the whole walk over `players`. */
  function Payments(players: seq<Player>): seq<Payment>
  {
    Walk(Start(Debtors(players), Creditors(players))).payments
  }

  function Settle(players: seq<Player>): seq<Transfer>
  {
    ToTransfers(Payments(players), Debtors(players), Creditors(players))
  }

  /** The transfers of a walk are those of its first pass followed by
      those of the rest. */
  lemma WalkTransfers(c: Cursors, debtors: seq<Player>, creditors: seq<Player>)
    requires Valid(c) && Open(c)
    requires |c.debts| == |debtors| && |c.credits| == |creditors|
    ensures ToTransfers(Walk(c).payments, debtors, creditors)
         == ToTransfers(Advance(c).paid, debtors, creditors) + ToTransfers(Walk(Advance(c).next).payments, debtors, creditors)
  {
    var paid, rest := Advance(c).paid, Walk(Advance(c).next).payments;
    assert Walk(c).payments == paid + rest;
    ToTransfersAppend(paid, rest, debtors, creditors);
  }

  /** Turning payments into transfers works payment by payment. */
  lemma ToTransfersAppend(a: seq<Payment>, b: seq<Payment>, debtors: seq<Player>, creditors: seq<Player>)
    requires forall p :: p in a ==> p.debtor < |debtors| && p.creditor < |creditors|
    requires forall p :: p in b ==> p.debtor < |debtors| && p.creditor < |creditors|
    ensures ToTransfers(a + b, debtors, creditors) == ToTransfers(a, debtors, creditors) + ToTransfers(b, debtors, creditors)
  {
    var ab := a + b;
    forall k | 0 <= k < |ab|
      ensures ToTransfers(ab, debtors, creditors)[k]
           == (ToTransfers(a, debtors, creditors) + ToTransfers(b, debtors, creditors))[k]
    {
      if k >= |a| {
        assert ab[k] == b[k - |a|];
      }
    }
  }

  /** `computeTransfers`, as a loop over working copies of the nets. Every
      transfer is a positive amount from a debtor to a creditor of the list,
      and there are fewer transfers than parties. */
  method ComputeTransfers(players: seq<Player>) returns (transfers: seq<Transfer>)
    ensures transfers == Settle(players)
    ensures forall t :: t in transfers ==>
              t.amount > 0.0 && t.from in players && t.from.net < 0.0 && t.to in players && t.to.net > 0.0
    ensures |Debtors(players)| == 0 || |Creditors(players)| == 0 ==> transfers == []
    ensures |transfers| < |Debtors(players)| + |Creditors(players)| || transfers == []
  {
    transfers := Pay(Debtors(players), Creditors(players));
    SettleShape(players);
  }

  /** The loop body's statements, run from `c`, make the pass `Advance(c)`:
      `amount` is what they pay, `mid` the state after the payment and
      `next` the state after the two cursor tests. */
  lemma PassIsAdvance(c: Cursors, amount: real, mid: Cursors, next: Cursors)
    requires Valid(c) && Open(c)
    requires amount == Min(c.credits[c.j], -c.debts[c.i])
    requires mid.i == c.i && mid.j == c.j
    requires mid.debts == if amount > 0.0 then c.debts[c.i := c.debts[c.i] + amount] else c.debts
    requires mid.credits == if amount > 0.0 then c.credits[c.j := c.credits[c.j] - amount] else c.credits
    requires next.debts == mid.debts && next.credits == mid.credits
    requires next.i == if Abs(mid.debts[mid.i]) < Tolerance then mid.i + 1 else mid.i
    requires next.j == if Abs(mid.credits[mid.j]) < Tolerance then mid.j + 1 else mid.j
    ensures Advance(c).next == next
    ensures Advance(c).paid == if amount > 0.0 then [Payment(c.i, c.j, amount)] else []
  {
  }

  /** One payment turned into one transfer. */
  lemma ToTransfersOne(p: Payment, debtors: seq<Player>, creditors: seq<Player>)
    requires p.debtor < |debtors| && p.creditor < |creditors|
    ensures ToTransfers([p], debtors, creditors) == [Transfer(debtors[p.debtor], creditors[p.creditor], p.amount)]
  {
  }

  /** The loop of `computeTransfers` over the sorted debtors and creditors. */
  method Pay(debtors: seq<Player>, creditors: seq<Player>) returns (transfers: seq<Transfer>)
    requires forall k :: 0 <= k < |debtors| ==> debtors[k].net < 0.0
    requires forall k :: 0 <= k < |creditors| ==> creditors[k].net > 0.0
    ensures transfers == ToTransfers(Walk(Start(debtors, creditors)).payments, debtors, creditors)
  {
    var debts, credits := Nets(debtors), Nets(creditors);
    var i, j := 0, 0;
    ghost var all := ToTransfers(Walk(Start(debtors, creditors)).payments, debtors, creditors);
    transfers := [];
    while i < |debts| && j < |credits|
      invariant Valid(Cursors(debts, credits, i, j))
      invariant |debts| == |debtors| && |credits| == |creditors|
      invariant transfers + ToTransfers(Walk(Cursors(debts, credits, i, j)).payments, debtors, creditors) == all
      decreases |debts| - i + |credits| - j
    {
      ghost var c := Cursors(debts, credits, i, j);
      ghost var done := transfers;
      var debt, credit := debts[i], credits[j];
      var amount := Min(credit, -debt);
      if amount > 0.0 {
        transfers := transfers + [Transfer(debtors[i], creditors[j], amount)];
        debts := debts[i := debt + amount];
        credits := credits[j := credit - amount];
      }
      ghost var mid := Cursors(debts, credits, i, j);
      if Abs(debts[i]) < Tolerance {
        i := i + 1;
      }
      if Abs(credits[j]) < Tolerance {
        j := j + 1;
      }
      PassKeeps(c, amount, mid, Cursors(debts, credits, i, j), debtors, creditors, done, transfers, all);
    }
    TransfersDone(Cursors(debts, credits, i, j), debtors, creditors, transfers);
  }

  /** The loop body keeps the loop invariant: after the statements of one
      pass, the transfers made so far followed by what the walk from the new
      state pays are still the whole list. */
  lemma PassKeeps(c: Cursors, amount: real, mid: Cursors, next: Cursors, debtors: seq<Player>, creditors: seq<Player>,
                  done: seq<Transfer>, transfers: seq<Transfer>, all: seq<Transfer>)
    requires Valid(c) && Open(c)
    requires |c.debts| == |debtors| && |c.credits| == |creditors|
    requires done + ToTransfers(Walk(c).payments, debtors, creditors) == all
    requires amount == Min(c.credits[c.j], -c.debts[c.i])
    requires transfers == done + if amount > 0.0 then [Transfer(debtors[c.i], creditors[c.j], amount)] else []
    requires mid.i == c.i && mid.j == c.j
    requires mid.debts == if amount > 0.0 then c.debts[c.i := c.debts[c.i] + amount] else c.debts
    requires mid.credits == if amount > 0.0 then c.credits[c.j := c.credits[c.j] - amount] else c.credits
    requires next.debts == mid.debts && next.credits == mid.credits
    requires next.i == if Abs(mid.debts[mid.i]) < Tolerance then mid.i + 1 else mid.i
    requires next.j == if Abs(mid.credits[mid.j]) < Tolerance then mid.j + 1 else mid.j
    ensures Valid(next) && |next.debts| == |debtors| && |next.credits| == |creditors|
    ensures next.i + next.j > c.i + c.j
    ensures transfers + ToTransfers(Walk(next).payments, debtors, creditors) == all
  {
    PassIsAdvance(c, amount, mid, next);
    TransfersStep(c, debtors, creditors, done, all);
    if amount > 0.0 {
      ToTransfersOne(Payment(c.i, c.j, amount), debtors, creditors);
    } else {
      assert done + [] == done;
    }
  }

  /** The loop invariant is kept by one pass. */
  lemma TransfersStep(c: Cursors, debtors: seq<Player>, creditors: seq<Player>, done: seq<Transfer>, all: seq<Transfer>)
    requires Valid(c) && Open(c)
    requires |c.debts| == |debtors| && |c.credits| == |creditors|
    requires done + ToTransfers(Walk(c).payments, debtors, creditors) == all
    ensures done + ToTransfers(Advance(c).paid, debtors, creditors)
                 + ToTransfers(Walk(Advance(c).next).payments, debtors, creditors) == all
  {
    WalkTransfers(c, debtors, creditors);
    ConcatAssociative(done, ToTransfers(Advance(c).paid, debtors, creditors),
                      ToTransfers(Walk(Advance(c).next).payments, debtors, creditors));
  }

  /** A finished walk adds no transfers. */
  lemma TransfersDone(c: Cursors, debtors: seq<Player>, creditors: seq<Player>, done: seq<Transfer>)
    requires Valid(c) && !Open(c)
    ensures done + ToTransfers(Walk(c).payments, debtors, creditors) == done
  {
    assert Walk(c).payments == [];
    assert done + [] == done;
  }

  /** Amounts, directions and count of the transfers. */
  lemma SettleShape(players: seq<Player>)
    ensures forall t :: t in Settle(players) ==>
              t.amount > 0.0 && t.from in players && t.from.net < 0.0 && t.to in players && t.to.net > 0.0
    ensures |Debtors(players)| == 0 || |Creditors(players)| == 0 ==> Settle(players) == []
    ensures |Settle(players)| < |Debtors(players)| + |Creditors(players)| || Settle(players) == []
  {
    var ds, cs := Debtors(players), Creditors(players);
    var c := Start(ds, cs);
    var w := Walk(c);
    var ts := Settle(players);
    forall t | t in ts
      ensures t.amount > 0.0 && t.from in players && t.from.net < 0.0 && t.to in players && t.to.net > 0.0
    {
      var k :| 0 <= k < |ts| && ts[k] == t;
      assert w.payments[k] in w.payments;
    }
    WalkCount(c);
  }

  // ---------------------------------------------------------------------
  // What the walk pays and leaves outstanding

  function PaidBy(k: nat): Payment -> real
  {
    (p: Payment) => if p.debtor == k then p.amount else 0.0
  }

  function ReceivedBy(k: nat): Payment -> real
  {
    (p: Payment) => if p.creditor == k then p.amount else 0.0
  }

  /** What the debtor at position `k` pays in total. */
  function Paid(ps: seq<Payment>, k: nat): real
  {
    Sum(ps, PaidBy(k))
  }

  /** What the creditor at position `k` receives in total. */
  function Received(ps: seq<Payment>, k: nat): real
  {
    Sum(ps, ReceivedBy(k))
  }

  /** One pass moves the amount it pays from the debtor's outstanding net
      to the creditor's. */
  lemma AdvanceBalances(c: Cursors)
    requires Valid(c) && Open(c)
    ensures forall k :: 0 <= k < |c.debts| ==>
              Advance(c).next.debts[k] == c.debts[k] + Paid(Advance(c).paid, k)
    ensures forall k :: 0 <= k < |c.credits| ==>
              Advance(c).next.credits[k] == c.credits[k] - Received(Advance(c).paid, k)
  {
    var t := Advance(c);
    if |t.paid| == 1 {
      forall k | 0 <= k < |c.debts| {
        SumSingle(t.paid[0], PaidBy(k));
      }
      forall k | 0 <= k < |c.credits| {
        SumSingle(t.paid[0], ReceivedBy(k));
      }
    }
  }

  /** The walk's payments account for every change of an outstanding net. */
  lemma {:induction false} WalkBalances(c: Cursors)
    requires Valid(c)
    ensures forall k :: 0 <= k < |c.debts| ==>
              Walk(c).end.debts[k] == c.debts[k] + Paid(Walk(c).payments, k)
    ensures forall k :: 0 <= k < |c.credits| ==>
              Walk(c).end.credits[k] == c.credits[k] - Received(Walk(c).payments, k)
    decreases |c.debts| - c.i + |c.credits| - c.j
  {
    if Open(c) {
      var t := Advance(c);
      var rest := Walk(t.next);
      AdvanceBalances(c);
      WalkBalances(t.next);
      forall k | 0 <= k < |c.debts|
        ensures Walk(c).end.debts[k] == c.debts[k] + Paid(Walk(c).payments, k)
      {
        SumAppend(t.paid, rest.payments, PaidBy(k));
      }
      forall k | 0 <= k < |c.credits|
        ensures Walk(c).end.credits[k] == c.credits[k] - Received(Walk(c).payments, k)
      {
        SumAppend(t.paid, rest.payments, ReceivedBy(k));
      }
    }
  }

  /** Positions behind a cursor are never changed again. */
  lemma {:induction false} WalkFrame(c: Cursors)
    requires Valid(c)
    ensures forall k :: 0 <= k < c.i ==> Walk(c).end.debts[k] == c.debts[k]
    ensures forall k :: 0 <= k < c.j ==> Walk(c).end.credits[k] == c.credits[k]
    decreases |c.debts| - c.i + |c.credits| - c.j
  {
    if Open(c) {
      WalkFrame(Advance(c).next);
    }
  }

  /** Every party a cursor moved past is settled to within `Tolerance`. */
  lemma {:induction false} WalkClosed(c: Cursors)
    requires Valid(c)
    ensures forall k :: c.i <= k < Walk(c).end.i ==> Abs(Walk(c).end.debts[k]) < Tolerance
    ensures forall k :: c.j <= k < Walk(c).end.j ==> Abs(Walk(c).end.credits[k]) < Tolerance
    decreases |c.debts| - c.i + |c.credits| - c.j
  {
    if Open(c) {
      var t := Advance(c);
      WalkClosed(t.next);
      WalkFrame(t.next);
    }
  }

  /** Each pass makes at most one payment and moves at least one cursor;
      when both sides run out together the last pass moved both. */
  lemma {:induction false} WalkCount(c: Cursors)
    requires Valid(c)
    ensures |Walk(c).payments| <= (Walk(c).end.i - c.i) + (Walk(c).end.j - c.j)
    ensures Open(c) && Walk(c).end.i == |c.debts| && Walk(c).end.j == |c.credits| ==>
              |Walk(c).payments| < (Walk(c).end.i - c.i) + (Walk(c).end.j - c.j)
    decreases |c.debts| - c.i + |c.credits| - c.j
  {
    if Open(c) {
      WalkCount(Advance(c).next);
    }
  }

  // ---------------------------------------------------------------------
  // Conservation, overpayment and the balanced-input bound

  function Value(x: real): real
  {
    x
  }

  /** The sum of a list of outstanding nets. */
  function Total(xs: seq<real>): real
  {
    Sum(xs, Value)
  }

  /** One pass moves an amount from one side to the other, so the sum of all
      outstanding nets stays the same. */
  lemma AdvanceConserves(c: Cursors)
    requires Valid(c) && Open(c)
    ensures Total(Advance(c).next.debts) + Total(Advance(c).next.credits) == Total(c.debts) + Total(c.credits)
  {
    var debt, credit := c.debts[c.i], c.credits[c.j];
    var amount := Min(credit, -debt);
    if amount > 0.0 {
      SumUpdate(c.debts, c.i, debt + amount, Value);
      SumUpdate(c.credits, c.j, credit - amount, Value);
    }
  }

  lemma {:induction false} WalkConserves(c: Cursors)
    requires Valid(c)
    ensures Total(Walk(c).end.debts) + Total(Walk(c).end.credits) == Total(c.debts) + Total(c.credits)
    decreases |c.debts| - c.i + |c.credits| - c.j
  {
    if Open(c) {
      AdvanceConserves(c);
      WalkConserves(Advance(c).next);
    }
  }

  lemma {:induction false} SumNonNegative<T>(s: seq<T>, f: T -> real)
    requires forall k :: 0 <= k < |s| ==> f(s[k]) >= 0.0
    ensures Sum(s, f) >= 0.0
    decreases |s|
  {
    if |s| > 0 {
      SumNonNegative(s[..|s| - 1], f);
    }
  }

  /** A sum of non-negative terms bounds each term. */
  lemma {:induction false} PartBelowTotal(xs: seq<real>)
    requires forall k :: 0 <= k < |xs| ==> xs[k] >= 0.0
    ensures forall k :: 0 <= k < |xs| ==> xs[k] <= Total(xs)
    decreases |xs|
  {
    if |xs| > 0 {
      var xs' := xs[..|xs| - 1];
      PartBelowTotal(xs');
      SumNonNegative(xs', Value);
    }
  }

  /** A sum of non-positive terms is below each term. */
  lemma {:induction false} PartAboveTotal(xs: seq<real>)
    requires forall k :: 0 <= k < |xs| ==> xs[k] <= 0.0
    ensures forall k :: 0 <= k < |xs| ==> Total(xs) <= xs[k]
    decreases |xs|
  {
    if |xs| > 0 {
      var xs' := xs[..|xs| - 1];
      PartAboveTotal(xs');
      assert Total(xs') <= 0.0 by {
        SumNonNegative(xs', Negated);
        NegatedTotal(xs');
      }
    }
  }

  function Negated(x: real): real
  {
    -x
  }

  lemma {:induction false} NegatedTotal(xs: seq<real>)
    ensures Sum(xs, Negated) == -Total(xs)
    decreases |xs|
  {
    if |xs| > 0 {
      NegatedTotal(xs[..|xs| - 1]);
    }
  }

  /** `n` tolerances: how far from zero `n` parties, each within
      `Tolerance` of zero, can add up to. The product is written with the
      literal value of `Tolerance` so that it stays linear. */
  function Slack(n: nat): (r: real)
    ensures r >= 0.0
    ensures n > 0 ==> r >= Tolerance
  {
    n as real * 0.0001
  }

  /** Terms each within `Tolerance` of zero sum to within `n` tolerances. */
  lemma {:induction false} TotalOfSmall(xs: seq<real>)
    requires forall k :: 0 <= k < |xs| ==> Abs(xs[k]) < Tolerance
    ensures -Slack(|xs|) <= Total(xs) <= Slack(|xs|)
    decreases |xs|
  {
    if |xs| > 0 {
      TotalOfSmall(xs[..|xs| - 1]);
    }
  }

  /** Started from the first parties, the walk leaves every party within
      `Tolerance` times the number of parties, plus the size of the
      starting total, of settled: the side that ran out is within
      `Tolerance` per party, and the other side holds what that side still
      owes or is owed together with the starting total. */
  lemma WalkResidue(c: Cursors)
    requires Valid(c) && c.i == 0 && c.j == 0
    ensures forall k :: 0 <= k < |c.debts| ==>
              Abs(Walk(c).end.debts[k]) <= Slack(|c.debts| + |c.credits|) + Abs(Total(c.debts) + Total(c.credits))
    ensures forall k :: 0 <= k < |c.credits| ==>
              Abs(Walk(c).end.credits[k]) <= Slack(|c.debts| + |c.credits|) + Abs(Total(c.debts) + Total(c.credits))
  {
    if Walk(c).end.i == |c.debts| {
      DebtorsRanOut(c);
    } else {
      CreditorsRanOut(c);
    }
  }

  /** `WalkResidue` when the debtors ran out: their residues are small and
      the creditors hold the rest of the total. */
  lemma DebtorsRanOut(c: Cursors)
    requires Valid(c) && c.i == 0 && c.j == 0 && Walk(c).end.i == |c.debts|
    ensures forall k :: 0 <= k < |c.debts| ==>
              Abs(Walk(c).end.debts[k]) <= Slack(|c.debts| + |c.credits|) + Abs(Total(c.debts) + Total(c.credits))
    ensures forall k :: 0 <= k < |c.credits| ==>
              Abs(Walk(c).end.credits[k]) <= Slack(|c.debts| + |c.credits|) + Abs(Total(c.debts) + Total(c.credits))
  {
    var e := Walk(c).end;
    WalkClosed(c);
    WalkConserves(c);
    TotalOfSmall(e.debts);
    PartBelowTotal(e.credits);
  }

  /** `WalkResidue` when the creditors ran out. */
  lemma CreditorsRanOut(c: Cursors)
    requires Valid(c) && c.i == 0 && c.j == 0 && Walk(c).end.j == |c.credits|
    ensures forall k :: 0 <= k < |c.debts| ==>
              Abs(Walk(c).end.debts[k]) <= Slack(|c.debts| + |c.credits|) + Abs(Total(c.debts) + Total(c.credits))
    ensures forall k :: 0 <= k < |c.credits| ==>
              Abs(Walk(c).end.credits[k]) <= Slack(|c.debts| + |c.credits|) + Abs(Total(c.debts) + Total(c.credits))
  {
    var e := Walk(c).end;
    WalkClosed(c);
    WalkConserves(c);
    TotalOfSmall(e.credits);
    PartAboveTotal(e.debts);
  }

  /** The walk's outstanding nets as payments made by each position. */
  lemma WalkPays(c: Cursors)
    requires Valid(c)
    ensures forall k :: 0 <= k < |c.debts| ==>
              0.0 <= Paid(Walk(c).payments, k) <= -c.debts[k]
    ensures forall k :: 0 <= k < |c.credits| ==>
              0.0 <= Received(Walk(c).payments, k) <= c.credits[k]
  {
    var w := Walk(c);
    WalkBalances(c);
    forall k | 0 <= k < |c.debts|
      ensures 0.0 <= Paid(w.payments, k)
    {
      SumNonNegative(w.payments, PaidBy(k));
    }
    forall k | 0 <= k < |c.credits|
      ensures 0.0 <= Received(w.payments, k)
    {
      SumNonNegative(w.payments, ReceivedBy(k));
    }
  }

  lemma {:induction false} TotalNets(ps: seq<Player>)
    ensures Total(Nets(ps)) == Sum(ps, ByNet)
    decreases |ps|
  {
    if |ps| > 0 {
      var ps' := ps[..|ps| - 1];
      assert Nets(ps)[..|ps| - 1] == Nets(ps');
      TotalNets(ps');
    }
  }

  /** Players with a zero net take no part in the sum. */
  lemma {:induction false} SumSplit(players: seq<Player>)
    ensures Sum(players, ByNet) == Sum(Filter(players, IsCreditor), ByNet) + Sum(Filter(players, IsDebtor), ByNet)
    decreases |players|
  {
    if |players| > 0 {
      var p := players[|players| - 1];
      var ps := players[..|players| - 1];
      SumSplit(ps);
      SumAppend(Filter(ps, IsCreditor), [p], ByNet);
      SumAppend(Filter(ps, IsDebtor), [p], ByNet);
      SumSingle(p, ByNet);
    }
  }

  /** The walk starts from outstanding nets that sum to the players' total. */
  lemma StartTotal(players: seq<Player>)
    ensures var c := Start(Debtors(players), Creditors(players));
      Total(c.debts) + Total(c.credits) == Sum(players, ByNet)
  {
    TotalNets(Debtors(players));
    TotalNets(Creditors(players));
    SumPermutation(Debtors(players), Filter(players, IsDebtor), ByNet);
    SumPermutation(Creditors(players), Filter(players, IsCreditor), ByNet);
    SumSplit(players);
  }

  /** No debtor pays more than its debt and no creditor receives more than
      its credit; counted by position in `Debtors` and `Creditors`. */
  lemma SettleNeverOverpays(players: seq<Player>)
    ensures var ds, ps := Debtors(players), Payments(players);
      forall k :: 0 <= k < |ds| ==> 0.0 <= Paid(ps, k) <= -ds[k].net
    ensures var cs, ps := Creditors(players), Payments(players);
      forall k :: 0 <= k < |cs| ==> 0.0 <= Received(ps, k) <= cs[k].net
  {
    WalkPays(Start(Debtors(players), Creditors(players)));
  }

  /** After the settlement of `players`, every debtor has paid and every
      creditor has received its net up to `Tolerance` per party plus
      `extra`. */
  predicate SettledWithin(players: seq<Player>, extra: real)
  {
    var ds, cs, ps := Debtors(players), Creditors(players), Payments(players);
    && (forall k :: 0 <= k < |ds| ==> Abs(ds[k].net + Paid(ps, k)) <= Slack(|ds| + |cs|) + extra)
    && (forall k :: 0 <= k < |cs| ==> Abs(cs[k].net - Received(ps, k)) <= Slack(|ds| + |cs|) + extra)
  }

  /** Whatever the nets sum to, every debtor pays and every creditor
      receives its net up to `Tolerance` times the number of parties plus
      the size of that sum. */
  lemma SettleResidue(players: seq<Player>)
    ensures var ds, cs, ps := Debtors(players), Creditors(players), Payments(players);
      forall k :: 0 <= k < |ds| ==>
        Abs(ds[k].net + Paid(ps, k)) <= Slack(|ds| + |cs|) + Abs(Sum(players, ByNet))
    ensures var ds, cs, ps := Debtors(players), Creditors(players), Payments(players);
      forall k :: 0 <= k < |cs| ==>
        Abs(cs[k].net - Received(ps, k)) <= Slack(|ds| + |cs|) + Abs(Sum(players, ByNet))
  {
    DebtorsResidue(players);
    CreditorsResidue(players);
  }

  lemma DebtorsResidue(players: seq<Player>)
    ensures var ds, cs, ps := Debtors(players), Creditors(players), Payments(players);
      forall k :: 0 <= k < |ds| ==>
        Abs(ds[k].net + Paid(ps, k)) <= Slack(|ds| + |cs|) + Abs(Sum(players, ByNet))
  {
    var c := Start(Debtors(players), Creditors(players));
    StartTotal(players);
    WalkBalanced(c);
    assert Payments(players) == Walk(c).payments;
  }

  lemma CreditorsResidue(players: seq<Player>)
    ensures var ds, cs, ps := Debtors(players), Creditors(players), Payments(players);
      forall k :: 0 <= k < |cs| ==>
        Abs(cs[k].net - Received(ps, k)) <= Slack(|ds| + |cs|) + Abs(Sum(players, ByNet))
  {
    var c := Start(Debtors(players), Creditors(players));
    StartTotal(players);
    WalkBalanced(c);
    assert Payments(players) == Walk(c).payments;
  }

  /** `SettleResidue` in terms of `SettledWithin`. */
  lemma Settled(players: seq<Player>)
    ensures SettledWithin(players, Abs(Sum(players, ByNet)))
  {
    SettleResidue(players);
  }

  /** When the nets sum to zero, every debtor pays and every creditor
      receives its net up to `Tolerance` times the number of parties. */
  lemma SettleBalanced(players: seq<Player>)
    requires Sum(players, ByNet) == 0.0
    ensures var ds, cs, ps := Debtors(players), Creditors(players), Payments(players);
      forall k :: 0 <= k < |ds| ==> Abs(ds[k].net + Paid(ps, k)) <= Slack(|ds| + |cs|)
    ensures var ds, cs, ps := Debtors(players), Creditors(players), Payments(players);
      forall k :: 0 <= k < |cs| ==> Abs(cs[k].net - Received(ps, k)) <= Slack(|ds| + |cs|)
  {
    SettleResidue(players);
  }

  /** From the first parties every outstanding net is paid off up to the
      residue the cursors leave behind and the starting total. */
  lemma WalkBalanced(c: Cursors)
    requires Valid(c) && c.i == 0 && c.j == 0
    ensures forall k :: 0 <= k < |c.debts| ==>
              Abs(c.debts[k] + Paid(Walk(c).payments, k)) <= Slack(|c.debts| + |c.credits|) + Abs(Total(c.debts) + Total(c.credits))
    ensures forall k :: 0 <= k < |c.credits| ==>
              Abs(c.credits[k] - Received(Walk(c).payments, k)) <= Slack(|c.debts| + |c.credits|) + Abs(Total(c.debts) + Total(c.credits))
  {
    WalkResidue(c);
    WalkBalances(c);
  }

  /** The bound of `SettleBalanced` cannot be `Tolerance` alone: on this
      balanced list both creditors close after one payment each, within
      `Tolerance` but short by 0.00009, so the smallest debtor is never
      reached and keeps owing 0.00018. */
  lemma ResidueExample()
    ensures var c := Cursors([-0.99991, -0.99991, -0.00018], [1.0, 1.0], 0, 0);
      && Total(c.debts) + Total(c.credits) == 0.0
      && Walk(c).payments == [Payment(0, 0, 0.99991), Payment(1, 1, 0.99991)]
      && Walk(c).end.debts[2] == -0.00018 && Abs(Walk(c).end.debts[2]) > Tolerance
  {
    var c := Cursors([-0.99991, -0.99991, -0.00018], [1.0, 1.0], 0, 0);
    var c1 := Cursors([0.0, -0.99991, -0.00018], [0.00009, 1.0], 1, 1);
    var c2 := Cursors([0.0, 0.0, -0.00018], [0.00009, 0.00009], 2, 2);
    assert Advance(c) == Turn([Payment(0, 0, 0.99991)], c1);
    assert Advance(c1) == Turn([Payment(1, 1, 0.99991)], c2);
    assert Walk(c2) == Walked([], c2);
    var ds, cs := c.debts, c.credits;
    assert ds[..2] == [-0.99991, -0.99991] && ds[..2][..1] == [-0.99991];
    SumSingle(-0.99991, Value);
    assert Sum(ds[..2], Value) == -0.99991 + -0.99991;
    assert Sum(ds, Value) == -0.99991 + -0.99991 + -0.00018;
    assert cs[..1] == [1.0];
    SumSingle(1.0, Value);
    assert Sum(cs, Value) == 2.0;
  }
}

=== FILE: sorting.dfy ===
/** Stable sorting by a real-valued key, largest key first. JavaScript's
    `Array.prototype.sort` is stable, so `xs.sort((a, b) => key(b) - key(a))`
    orders by non-increasing key and keeps equal keys in their input order;
    ascending order is the same sort on the negated key. */
module Sorting {

  /** Keys never increase from left to right. */
  predicate NonIncreasing<T>(s: seq<T>, key: T -> real)
  {
    forall a, b :: 0 <= a < b < |s| ==> key(s[a]) >= key(s[b])
  }

  /** The elements of `s` whose key is exactly `v`, in their order in `s`:
      stability means a sort leaves every such class as it was. */
  function KeyClass<T>(s: seq<T>, key: T -> real, v: real): seq<T>
  {
    if |s| == 0 then []
    else (if key(s[0]) == v then [s[0]] else []) + KeyClass(s[1..], key, v)
  }

  /** Puts `x` in front of the first element whose key is not greater. */
  function Insert<T(==)>(x: T, s: seq<T>, key: T -> real): (r: seq<T>)
    ensures multiset(r) == multiset(s) + multiset{x}
  {
    if |s| == 0 || key(x) >= key(s[0]) then [x] + s
    else
      assert s == [s[0]] + s[1..];
      [s[0]] + Insert(x, s[1..], key)
  }

  /** An element no smaller than every key of a sorted sequence can go in front. */
  lemma ConsNonIncreasing<T>(y: T, r: seq<T>, key: T -> real)
    requires NonIncreasing(r, key)
    requires forall k :: 0 <= k < |r| ==> key(r[k]) <= key(y)
    ensures NonIncreasing([y] + r, key)
  {
    var t := [y] + r;
    forall a, b | 0 <= a < b < |t|
      ensures key(t[a]) >= key(t[b])
    {
      assert t[b] == r[b - 1];
      if a > 0 {
        assert t[a] == r[a - 1];
      }
    }
  }

  /** Inserting below a bound keeps every key below it. */
  lemma InsertBelow<T>(x: T, s: seq<T>, key: T -> real, bound: real)
    requires key(x) <= bound
    requires forall k :: 0 <= k < |s| ==> key(s[k]) <= bound
    ensures forall k :: 0 <= k < |Insert(x, s, key)| ==> key(Insert(x, s, key)[k]) <= bound
  {
    var r := Insert(x, s, key);
    forall k | 0 <= k < |r|
      ensures key(r[k]) <= bound
    {
      assert r[k] in multiset(r);
      if r[k] != x {
        assert r[k] in multiset(s);
        var m :| 0 <= m < |s| && s[m] == r[k];
      }
    }
  }

  lemma {:induction false} InsertNonIncreasing<T>(x: T, s: seq<T>, key: T -> real)
    requires NonIncreasing(s, key)
    ensures NonIncreasing(Insert(x, s, key), key)
    decreases |s|
  {
    if |s| > 0 && key(x) < key(s[0]) {
      var tail := s[1..];
      assert forall k :: 0 <= k < |tail| ==> key(tail[k]) <= key(s[0]) by {
        forall k | 0 <= k < |tail|
          ensures key(tail[k]) <= key(s[0])
        {
          assert tail[k] == s[k + 1];
        }
      }
      assert NonIncreasing(tail, key);
      InsertNonIncreasing(x, tail, key);
      InsertBelow(x, tail, key, key(s[0]));
      ConsNonIncreasing(s[0], Insert(x, tail, key), key);
      InsertPast(x, s, key);
    } else {
      ConsNonIncreasing(x, s, key);
    }
  }

  /** Insertion sort on the key, largest first, stable. */
  function SortDesc<T(==)>(s: seq<T>, key: T -> real): (r: seq<T>)
    ensures multiset(r) == multiset(s)
    ensures NonIncreasing(r, key)
  {
    if |s| == 0 then []
    else
      assert s == [s[0]] + s[1..];
      InsertNonIncreasing(s[0], SortDesc(s[1..], key), key);
      Insert(s[0], SortDesc(s[1..], key), key)
  }

  lemma KeyClassCons<T>(y: T, s: seq<T>, key: T -> real, v: real)
    ensures KeyClass([y] + s, key, v) == (if key(y) == v then [y] else []) + KeyClass(s, key, v)
  {
    assert ([y] + s)[1..] == s;
  }

  lemma InsertPast<T>(x: T, s: seq<T>, key: T -> real)
    requires |s| > 0 && key(x) < key(s[0])
    ensures Insert(x, s, key) == [s[0]] + Insert(x, s[1..], key)
  {
  }

  /** Passing over an element with a greater key leaves `x` in front of
      its own key class. */
  lemma KeyClassPast<T>(x: T, y: T, rest: seq<T>, tail: seq<T>, key: T -> real, v: real)
    requires key(x) < key(y)
    requires KeyClass(rest, key, v) == (if key(x) == v then [x] else []) + KeyClass(tail, key, v)
    ensures KeyClass([y] + rest, key, v) == (if key(x) == v then [x] else []) + KeyClass([y] + tail, key, v)
  {
    KeyClassCons(y, rest, key, v);
    KeyClassCons(y, tail, key, v);
    var kept := KeyClass(tail, key, v);
    if key(y) == v {
      assert [] + kept == kept;
      assert [] + ([y] + kept) == [y] + kept;
    } else if key(x) == v {
      assert [] + KeyClass(rest, key, v) == KeyClass(rest, key, v);
      assert [] + kept == kept;
    } else {
      assert [] + kept == kept;
    }
  }

  /** Inserting `x` puts it in front of the elements of its own key: only
      elements with a greater key are passed over. */
  lemma {:induction false} InsertKeyClass<T>(x: T, s: seq<T>, key: T -> real, v: real)
    ensures KeyClass(Insert(x, s, key), key, v)
         == (if key(x) == v then [x] else []) + KeyClass(s, key, v)
    decreases |s|
  {
    if |s| == 0 || key(x) >= key(s[0]) {
      KeyClassCons(x, s, key, v);
    } else {
      InsertKeyClass(x, s[1..], key, v);
      InsertPast(x, s, key);
      KeyClassPast(x, s[0], Insert(x, s[1..], key), s[1..], key, v);
      assert [s[0]] + s[1..] == s;
    }
  }

  /** Sorting keeps the relative order of elements with equal keys. */
  lemma {:induction false} SortDescStable<T>(s: seq<T>, key: T -> real, v: real)
    ensures KeyClass(SortDesc(s, key), key, v) == KeyClass(s, key, v)
    decreases |s|
  {
    if |s| > 0 {
      SortDescStable(s[1..], key, v);
      InsertKeyClass(s[0], SortDesc(s[1..], key), key, v);
    }
  }

  /** Input that is already in order comes back unchanged. */
  lemma {:induction false} SortDescOfSorted<T>(s: seq<T>, key: T -> real)
    requires NonIncreasing(s, key)
    ensures SortDesc(s, key) == s
    decreases |s|
  {
    if |s| > 0 {
      assert NonIncreasing(s[1..], key);
      SortDescOfSorted(s[1..], key);
      assert s == [s[0]] + s[1..];
    }
  }
}

=== FILE: text.dfy ===
/** String helpers with JavaScript meaning: `trim`, `join` and `split`. */
module Text {

  /** The white space `String.prototype.trim` removes, restricted to its
      ASCII members: space, tab, line feed, vertical tab, form feed and
      carriage return. */
  predicate IsSpace(c: char)
  {
    c == ' ' || c == '\t' || c == '\n' || c == '\U{000B}' || c == '\U{000C}' || c == '\r'
  }

  predicate AllSpace(s: string)
  {
    forall k :: 0 <= k < |s| ==> IsSpace(s[k])
  }

  /** Drops the leading white space. */
  function TrimStart(s: string): (r: string)
    ensures |r| <= |s|
    ensures r == [] || !IsSpace(r[0])
  {
    if |s| > 0 && IsSpace(s[0]) then TrimStart(s[1..]) else s
  }

  /** Drops the trailing white space. */
  function TrimEnd(s: string): (r: string)
    ensures |r| <= |s|
    ensures r == [] || !IsSpace(r[|r| - 1])
  {
    if |s| > 0 && IsSpace(s[|s| - 1]) then TrimEnd(s[..|s| - 1]) else s
  }

  /** `TrimStart` removes a white-space prefix. */
  lemma {:induction false} TrimStartSuffix(s: string)
    ensures TrimStart(s) == s[|s| - |TrimStart(s)|..]
    ensures AllSpace(s[..|s| - |TrimStart(s)|])
    decreases |s|
  {
    if |s| > 0 && IsSpace(s[0]) {
      var r := TrimStart(s[1..]);
      TrimStartSuffix(s[1..]);
      assert s[..|s| - |r|] == [s[0]] + s[1..][..|s[1..]| - |r|];
    }
  }

  /** `TrimEnd` removes a white-space suffix. */
  lemma {:induction false} TrimEndPrefix(s: string)
    ensures TrimEnd(s) == s[..|TrimEnd(s)|]
    ensures AllSpace(s[|TrimEnd(s)|..])
    decreases |s|
  {
    if |s| > 0 && IsSpace(s[|s| - 1]) {
      var r := TrimEnd(s[..|s| - 1]);
      TrimEndPrefix(s[..|s| - 1]);
      assert s[|r|..] == s[..|s| - 1][|r|..] + [s[|s| - 1]];
    }
  }

  /** `String.prototype.trim`: white space removed from both ends. */
  function Trim(s: string): (r: string)
    ensures |r| <= |s|
  {
    TrimEnd(TrimStart(s))
  }

  /** `r` is `s` with white space `s[..a]` and `s[a + |r|..]` removed. */
  predicate Strips(s: string, r: string, a: int)
  {
    0 <= a <= |s| - |r| && r == s[a..a + |r|] && AllSpace(s[..a]) && AllSpace(s[a + |r|..])
  }

  lemma SliceOfSuffix(s: string, a: nat, n: nat)
    requires a + n <= |s|
    ensures s[a..][..n] == s[a..a + n]
    ensures s[a..][n..] == s[a + n..]
  {
  }

  /** What trimming removes is white space at the two ends. */
  lemma TrimInfix(s: string)
    ensures exists a :: Strips(s, Trim(s), a)
  {
    var t := TrimStart(s);
    var r := TrimEnd(t);
    var a := |s| - |t|;
    TrimStartSuffix(s);
    TrimEndPrefix(t);
    assert t == s[a..];
    assert r == t[..|r|];
    SliceOfSuffix(s, a, |r|);
    assert r == s[a..a + |r|];
    assert s[a + |r|..] == t[|r|..];
    assert Trim(s) == r;
    assert Strips(s, r, a);
  }

  /** A string trims to nothing exactly when it is all white space. */
  lemma TrimEmpty(s: string)
    ensures Trim(s) == [] <==> AllSpace(s)
  {
    TrimInfix(s);
  }

  /** Trimming keeps every character that is not white space, each as often
      as the original holds it. */
  lemma TrimCount(s: string, c: char)
    requires !IsSpace(c)
    ensures multiset(Trim(s))[c] == multiset(s)[c]
  {
    TrimInfix(s);
    var a :| Strips(s, Trim(s), a);
    var r := Trim(s);
    assert s == s[..a] + r + s[a + |r|..];
    assert c !in s[..a] && c !in s[a + |r|..];
  }

  /** Trimming keeps a character that is not white space, and keeps it
      past the start when such a character precedes it. */
  lemma TrimLater(s: string, i: nat, m: nat)
    requires i < m < |s| && !IsSpace(s[i]) && !IsSpace(s[m])
    ensures exists n :: 0 < n < |Trim(s)| && Trim(s)[n] == s[m]
  {
    TrimInfix(s);
    var t := Trim(s);
    var a :| Strips(s, t, a);
    assert t[m - a] == s[m];
  }

  /** Trimming keeps only characters of the original. */
  lemma TrimChars(s: string)
    ensures forall c :: c in Trim(s) ==> c in s
  {
    TrimInfix(s);
    var a :| Strips(s, Trim(s), a);
    forall c | c in Trim(s)
      ensures c in s
    {
      var k :| 0 <= k < |Trim(s)| && Trim(s)[k] == c;
      assert s[a + k] == c;
    }
  }

  /** Leading white space added in front is trimmed away. */
  lemma {:induction false} TrimStartPad(a: string, x: string)
    requires AllSpace(a)
    ensures TrimStart(a + x) == TrimStart(x)
    decreases |a|
  {
    if |a| > 0 {
      assert (a + x)[1..] == a[1..] + x;
      TrimStartPad(a[1..], x);
    } else {
      assert a + x == x;
    }
  }

  /** Trailing white space added at the back is trimmed away. */
  lemma {:induction false} TrimEndPad(x: string, b: string)
    requires AllSpace(b)
    ensures TrimEnd(x + b) == TrimEnd(x)
    decreases |b|
  {
    if |b| > 0 {
      assert (x + b)[..|x + b| - 1] == x + b[..|b| - 1];
      TrimEndPad(x, b[..|b| - 1]);
    } else {
      assert x + b == x;
    }
  }

  /** A text starting with white space is all white space exactly when
      its rest is. */
  lemma SpaceCons(u: string)
    requires |u| > 0 && IsSpace(u[0])
    ensures AllSpace(u) <==> AllSpace(u[1..])
  {
    if AllSpace(u) {
      forall k | 0 <= k < |u| - 1
        ensures IsSpace(u[1..][k])
      {
        assert u[1..][k] == u[k + 1];
      }
    }
    if AllSpace(u[1..]) {
      forall k | 0 <= k < |u|
        ensures IsSpace(u[k])
      {
        if k > 0 {
          assert u[k] == u[1..][k - 1];
        }
      }
    }
  }

  /** `TrimStart` of a concatenation stops inside the first part unless
      that part is all white space. */
  lemma {:induction false} TrimStartAppend(u: string, b: string)
    ensures TrimStart(u + b) == if AllSpace(u) then TrimStart(b) else TrimStart(u) + b
    decreases |u|
  {
    if |u| == 0 {
      assert u + b == b;
    } else if IsSpace(u[0]) {
      assert (u + b)[1..] == u[1..] + b;
      TrimStartAppend(u[1..], b);
      SpaceCons(u);
    }
  }

  /** A text that neither starts nor ends with white space trims to itself. */
  lemma TrimKeeps(s: string)
    requires |s| > 0 && !IsSpace(s[0]) && !IsSpace(s[|s| - 1])
    ensures Trim(s) == s
  {
    assert TrimStart(s) == s;
  }

  /** White space around a text does not change what it trims to. */
  lemma TrimPadded(a: string, u: string, b: string)
    requires AllSpace(a) && AllSpace(b)
    ensures Trim(a + u + b) == Trim(u)
  {
    assert a + u + b == a + (u + b);
    TrimStartPad(a, u + b);
    TrimStartAppend(u, b);
    if AllSpace(u) {
      TrimStartPad(b, "");
      TrimStartPad(u, "");
      assert b + "" == b && u + "" == u;
    } else {
      TrimEndPad(TrimStart(u), b);
    }
  }

  /** `Array.prototype.join`: the parts with `sep` between neighbours. */
  function Join(parts: seq<string>, sep: string): string
  {
    if |parts| == 0 then ""
    else if |parts| == 1 then parts[0]
    else Join(parts[..|parts| - 1], sep) + sep + parts[|parts| - 1]
  }

  /** `String.prototype.split` on a single character: the maximal pieces of
      `s` between occurrences of `c`; there is always at least one piece. */
  function Split(s: string, c: char): (r: seq<string>)
    ensures |r| >= 1
  {
    if |s| == 0 then [""]
    else
      var r := Split(s[..|s| - 1], c);
      if s[|s| - 1] == c then r + [""]
      else r[..|r| - 1] + [r[|r| - 1] + [s[|s| - 1]]]
  }

  lemma {:induction false} SplitWithout(s: string, c: char)
    requires c !in s
    ensures Split(s, c) == [s]
    decreases |s|
  {
    if |s| > 0 {
      SplitWithout(s[..|s| - 1], c);
      assert s == s[..|s| - 1] + [s[|s| - 1]];
    }
  }

  /** Splitting at a separator that `b` does not contain ends with piece `b`. */
  lemma {:induction false} SplitAfter(a: string, b: string, c: char)
    requires c !in b
    ensures Split(a + [c] + b, c) == Split(a, c) + [b]
    decreases |b|
  {
    if |b| == 0 {
      assert (a + [c] + b)[..|a + [c] + b| - 1] == a;
    } else {
      var b' := b[..|b| - 1];
      SplitAfter(a, b', c);
      assert (a + [c] + b)[..|a + [c] + b| - 1] == a + [c] + b';
      assert b == b' + [b[|b| - 1]];
    }
  }

  /** Splitting undoes joining when no part contains the separator. */
  lemma {:induction false} SplitJoin(parts: seq<string>, c: char)
    requires |parts| >= 1
    requires forall k :: 0 <= k < |parts| ==> c !in parts[k]
    ensures Split(Join(parts, [c]), c) == parts
    decreases |parts|
  {
    if |parts| == 1 {
      SplitWithout(parts[0], c);
    } else {
      var init := parts[..|parts| - 1];
      SplitJoin(init, c);
      SplitAfter(Join(init, [c]), parts[|parts| - 1], c);
      assert init + [parts[|parts| - 1]] == parts;
    }
  }
}
